=== FILE: README.md ===
# Exported-recordings analyser, modelled in Dafny

The analyser reads a session recording exported from PostHog. Each snapshot in the
recording is an rrweb event: a full snapshot, an incremental snapshot, meta, custom,
plugin and so on. The analyser tallies the snapshots by kind and by size. This project
models its two pure cores:

- **The aggregate accumulator** (`analysis.py`):
  - `SizedCount`, a (count, size) pair, with its pairwise `combine` and its "record one
    item of N bytes" `__add__`;
  - the key-wise merge of sized-count dictionaries;
  - `Analysis.empty()` and the field-by-field merge `Analysis.__add__`, including the
    widening of the first/last timestamps;
  - the "top ten by size" view of a tally dictionary.

  It is modelled as immutable datatypes and pure functions. The monoid laws are proved
  about them.
- **The classification fold** (`main.py`):
  - the three code tables (event type, incremental-snapshot source, DOM node type);
  - the loop of `analyse_exported_recording`, which classifies each snapshot and updates
    four tallies: snapshots per type, sized counts per incremental source, the mutation
    removal total, and sized counts per added node type plus the list of addition sizes.

  Each snapshot is a parsed JSON value. Classifying a snapshot (`Classifier.Classify`)
  is separate from applying it to the tallies (`Classifier.Apply`). Every subscript and
  table lookup that Python would let fail is modelled as a `Result` carrying the Python
  exception (`KeyError` with its key, `TypeError`, `AttributeError`). The loop stops at
  the first snapshot that raises. Nothing is printed before the loop ends, so a
  half-updated tally is never observable and the model returns only an error.

The two halves are linked by `ClassifierLaws.AnalyseSplits`. Analysing a recording in
two parts and merging the tallies, with the dictionary merges of the accumulator, gives
the result of analysing it whole. This is the partitioning property the accumulator
exists for.

Modules, one per file:

- `Wrappers` (`wrappers.dfy`): `Option` and `Result`.
- `SizedCounts` (`sized_count.dfy`): `SizedCount`.
- `SizedMaps` (`sized_maps.dfy`): dictionary merges and their totals.
- `Analyses` (`analysis.dfy`): the `Analysis` record and its merge.
- `TopTen` (`top_ten.dfy`): the top-ten view.
- `JsonValues` (`json_values.dfy`): parsed values and the Python operations on them.
- `CodeTables` (`code_tables.dfy`): the three code tables.
- `Classifier` (`classifier.dfy`): classification and the loop.
- `ClassifierLaws` (`classifier_laws.dfy`): lookup facts and the splitting theorem.

### Behaviour of the code that the model keeps

- An incremental snapshot whose `source` is missing or unmapped raises `KeyError` and
  ends the analysis (`main.py:93-95`; `ClassifierLaws.SourceCodeLookup`).
- An addition without a `node`, or with an unmapped node type, raises as well
  (`main.py:107`; `ClassifierLaws.NodeTypeLookup`).
- Node type 0 is named `"wat"` (`main.py:38`; `CodeTables.NodeTypesDomain`).
- An absent timestamp is neutral in the timestamp merges (`analysis.py:132-144`;
  `Analyses.EarliestOf`, `Analyses.LatestOf`).
- `Analysis.__add__` concatenates its list fields left then right (`analysis.py:99`,
  `124`, `127-128`), so it commutes only up to the order of those lists.
  - `Analyses.CombineCommutesUpToListOrder` proves exactly that.
  - `Analyses.CombineCommutesIffListsCommute` shows when full commutativity holds.
  - `Analyses.CombineIsNotCommutative` gives inputs where it fails.
- Python's `bool` is a subtype of `int`, so a JSON `true`/`false` code finds the table
  entry 1/0 (`CodeTables.Lookup`, `ClassifierLaws.BooleanCodes`).

### What the loop is proved to compute

`Classifier.AnalyseExportedRecording` computes the recursive fold `Classifier.Analyse`.
When it succeeds, its tallies agree with readings taken directly off the JSON of the
snapshots (`Classifier.AccountsFor`). These readings do not go through the classifier.

- Each type name is counted once per snapshot with that `type`.
- Each source holds one item per incremental snapshot with that source, of the size of
  its `data`.
- Each node type holds one item per `adds` entry of that type, of the entry's size.
- `addition_sizes` lists the sizes of all `adds` entries, in order.
- The removal count is the sum of `len(data["removes"])` over the `Mutation` snapshots.
- A key is present in a dictionary exactly when its reading counts something: the loop
  creates each key just before its first `+=` (`main.py:88-89`, `97-100`, `108-109`).

It succeeds exactly when every snapshot classifies. Classification fails exactly when
Python raises, and with the exception Python raises at the first failing step:
- a snapshot that is not a dictionary (`AttributeError` at `.get`);
- a `type` the event table does not map;
- for an incremental snapshot, a missing or non-dictionary `data`, or a missing or
  unmapped `source`;
- for a `Mutation` one, a missing `removes` or one without a length, or a missing `adds`,
  one that cannot be iterated, or one with an entry that lacks a mapped `node.type`
  (the first such entry's exception).

## Model

| member | source | states |
|---|---|---|
| SizedCounts.SizedCount.Combine | analysis.py:27-28 | combining with `SizedCount(0, 0)` on either side leaves the other tally unchanged |
| SizedCounts.SizedCount.Record | analysis.py:30-31 | recording an item of N bytes is the same as combining with the one-item tally `SizedCount(1, N)`; `main.py:67-68` is the same operation |
| SizedCounts.CombineCommutative | analysis.py:27-28 | combining two sized counts does not depend on their order |
| SizedCounts.CombineAssociative | analysis.py:27-28 | combining sized counts does not depend on grouping |
| SizedCounts.ZeroIsIdentity | analysis.py:27-28 | `SizedCount(0, 0)` is a two-sided identity of `combine` |
| SizedCounts.RecordIsCombineWithOne | analysis.py:30-31 | recording an item of N bytes adds one to the count and N to the size; it is the same as combining with `SizedCount(1, N)` |
| SizedCounts.RecordAllAccumulates | analysis.py:30-31 | recording k items raises the count by exactly k and the size by the sum of their sizes |
| SizedMaps.CombineDicts | analysis.py:40-47 | the merged dictionary has exactly the keys of either side |
| SizedMaps.CombineCounts | analysis.py:116-120 | the merged type counts have exactly the keys of either side |
| SizedMaps.GetCombineDicts | analysis.py:43-46 | the merged dictionary's keys are exactly the union of both key sets; each value is the left value combined with the right value, an absent key counting as (0, 0) |
| SizedMaps.CombineDictsCommutative | analysis.py:40-47 | the sized-count dictionary merge does not depend on operand order |
| SizedMaps.CombineDictsAssociative | analysis.py:40-47 | the sized-count dictionary merge does not depend on grouping |
| SizedMaps.CombineDictsIdentity | analysis.py:40-47 | the empty dictionary is a two-sided identity of the merge |
| SizedMaps.CountOfCombineCounts | analysis.py:116-120 | the merged type counts cover exactly the union of keys, and each count is the sum of the two counts, absent meaning 0 |
| SizedMaps.CombineCountsCommutative | analysis.py:116-120 | the type-count merge does not depend on operand order |
| SizedMaps.CombineCountsAssociative | analysis.py:116-120 | the type-count merge does not depend on grouping |
| SizedMaps.CombineCountsIdentity | analysis.py:116-120 | the empty dictionary is a two-sided identity of the type-count merge |
| SizedMaps.RecordDistributesOverCombine | analysis.py:43-46 | recording an item under a key of a merged dictionary gives the merge of the left operand with the right operand after the same recording |
| SizedMaps.IncrementDistributesOverCombine | analysis.py:116-120 | adding to one count of a merged count dictionary gives the merge of the left operand with the right operand after the same addition |
| SizedMaps.TotalCombineCounts | analysis.py:116-120 | the sum of all counts of a merge is the sum of the two operands' sums |
| SizedMaps.TotalsOfCombine | analysis.py:43-46 | the total count and the total size over a merged sized-count dictionary are the sums of the operands' totals |
| SizedMaps.TotalsOfRecord | analysis.py:30-31 | recording one item of N bytes under any key raises the dictionary's total count by 1 and its total size by N |
| Analyses.Combine | analysis.py:88-130 | merging two analyses whose timestamp windows are each empty or ordered gives an empty or ordered window |
| Analyses.Empty | analysis.py:69-86 | the empty accumulator has no counted types, no addition sizes, no unterminated lines and no timestamps |
| Analyses.EarliestOf | analysis.py:139-144 | an absent first timestamp is neutral; two present ones give their minimum, which is one of them |
| Analyses.LatestOf | analysis.py:132-137 | an absent last timestamp is neutral; two present ones give their maximum, which is one of them |
| Analyses.CombineSumsScalars | analysis.py:96-98 | the removal and text-mutation sized counts add componentwise, and so does the iframe count (also lines 121-123 and 129) |
| Analyses.CombineConcatenatesLists | analysis.py:99 | addition sizes, unterminated lines and full-snapshot timestamps of the sum are the left operand's entries followed by the right operand's (also lines 124 and 127-128) |
| Analyses.CombineAddsTotals | analysis.py:108-120 | the total type count, the total incremental-source count, and the total count and size of additions of a sum are the sums of the operands' totals |
| Analyses.EmptyIsIdentity | analysis.py:69-130 | `Analysis.empty()` is a two-sided identity of `__add__` |
| Analyses.CombineAssociative | analysis.py:88-130 | `__add__` is associative on every field |
| Analyses.CombineCommutesUpToListOrder | analysis.py:88-130 | swapping the operands of `__add__` leaves every dictionary and scalar unchanged and permutes the three list fields |
| Analyses.CombineCommutesIffListsCommute | analysis.py:88-130 | `a + b == b + a` exactly when each list field concatenates to the same list in both orders |
| Analyses.CombineIsNotCommutative | analysis.py:99 | two operands holding one addition size each, of different sizes, give different sums in the two orders |
| Analyses.CombineKeepsWindowOrdered | analysis.py:125-144 | if each operand has no timestamps or first <= last, so does the sum, and its window contains each operand's first and last timestamps |
| Analyses.WideningLaws | analysis.py:132-144 | the min and max timestamp merges are each associative and commutative |
| TopTen.SortBySize | analysis.py:203-207 | the sort by size, largest first, returns a descending permutation of the entries |
| TopTen.SortBySizeIsStable | analysis.py:203-207 | entries of equal size keep their dictionary order, as Python's stable sort with `reverse=True` does |
| TopTen.TopTenSized | analysis.py:198-209 | the view has min(n, 10) entries, largest first; it is a sub-multiset of the input, and every entry left out is no bigger than any entry kept; of each size, the entries kept are the first of that size in dictionary order |
| TopTen.OfSizePrefix | analysis.py:203-209 | slicing `[0:10]` keeps, of each size, a prefix of the entries of that size |
| TopTen.CutKeepsFirstOfEachSize | analysis.py:203-209 | cutting the stably sorted entries keeps, of each size, a prefix of the input's entries of that size |
| JsonValues.Index | main.py:94 | a string subscript succeeds exactly on a dictionary that has the key; a missing key raises `KeyError`, any other value raises `TypeError` |
| JsonValues.GetOr | main.py:87 | `.get(key, default)` on a dictionary gives the value or the default; any other value raises `AttributeError` |
| JsonValues.Length | main.py:105 | `len` counts list items, string characters or dictionary keys; any other value raises `TypeError` |
| CodeTables.Lookup | main.py:87 | a table lookup yields a name of the table exactly when the code is a mapped integer (or a boolean read as 0/1); an unmapped code raises `KeyError` naming it; a list or dictionary raises `TypeError` |
| CodeTables.EventTypesDomain | main.py:8-16 | the event-type table maps exactly -1 and 1..6 |
| CodeTables.IncrementalSnapshotEventSourcesDomain | main.py:18-35 | the incremental-source table maps exactly 0..15 |
| CodeTables.NodeTypesDomain | main.py:37-50 | the node-type table maps exactly 0..11, with 0 named `"wat"` |
| CodeTables.BranchNamesAreUnique | main.py:8-35 | `"IncrementalSnapshot"` is the name of code 3 only, `"Unknown"` of -1 only, and `"Mutation"` of source 0 only |
| Classifier.AdditionEntries | main.py:106 | iterating `adds` visits a list's items in order and a string's one-character strings; an empty dictionary visits nothing and a non-empty one raises `TypeError` at the subscript that follows; `None`, numbers and booleans raise `TypeError` |
| Classifier.ClassifyAddition | main.py:107-111 | an addition classifies exactly when it is a dictionary whose `node` is a dictionary with a `type` the node table maps; it is sized as the whole entry |
| Classifier.ClassifyAdditions | main.py:106-111 | the additions classify exactly when each one does, giving one classified node per entry, in order; on failure the error is that of the first entry that fails |
| Classifier.ClassifyMutation | main.py:104-107 | the removal count is `len(data["removes"])`, the additions are the classified entries of `data["adds"]`, and each has a node type from the table; it succeeds exactly when `removes` has a length, `adds` can be iterated and every entry classifies; otherwise it raises the exception of the first failing step: the `removes` subscript, `TypeError` from `len`, the `adds` subscript, `TypeError` from the iteration, or the first failing entry's |
| Classifier.ClassifyIncremental | main.py:92-104 | the source is the table name of `data["source"]` and the size is that of `data`; there is a mutation part exactly when the source is `"Mutation"`, and it is the classification of `data`; it succeeds exactly when the source is mapped and, for `"Mutation"`, the mutation data classifies; otherwise it raises the exception of the first failing step: the `data` subscript, the `source` subscript, the source lookup, or the mutation part |
| Classifier.Classify | main.py:87-107 | the type is the table name of `snapshot.get("type", -1)`. A snapshot classifies exactly when that lookup succeeds and, for type `"IncrementalSnapshot"`, its incremental part classifies. That part is the classification of its `data`. Each failure gives the exception of the step that raised |
| Classifier.RecordAddition | main.py:108-112 | an addition is recorded under its own node type as one more item of its size, and its size is appended to `addition_sizes`; the only key it can create is its own node type; the other tallies are untouched |
| Classifier.RecordAdditionTotals | main.py:108-112 | no other node type changes; the per-node-type total count grows by 1 and the total size by the addition's size, as do the length and the sum of `addition_sizes` |
| Classifier.RecordAdditions | main.py:106-112 | the additions loop appends exactly the additions' sizes, in order, to `addition_sizes`; it adds one count per addition and leaves the other tallies alone |
| Classifier.RecordAdditionsPerType | main.py:106-111 | per node type, the loop records exactly the additions of that type, in order |
| Classifier.CountType | main.py:88-90 | the snapshot's own type count grows by 1 (from 0 when absent), and it is the only key added; the other tallies are untouched |
| Classifier.CountSource | main.py:96-102 | the snapshot's source gets one more item of the size of its `data` (from (0, 0) when absent), and it is the only key added; the other tallies are untouched |
| Classifier.CountRemovals | main.py:105 | the removal count grows by `len(removes)`; the other tallies are untouched |
| Classifier.RecordMutation | main.py:104-112 | a mutation adds its removals to the removal count and appends its additions' sizes to `addition_sizes`, one count per addition |
| Classifier.Apply | main.py:87-112 | a snapshot raises its own type count by 1, the removal count by its removals, and appends its additions' sizes; a non-incremental snapshot leaves the source tallies alone, and a non-mutation the node-type tallies |
| Classifier.RunFrom | main.py:86-112 | the loop from any tallies succeeds exactly when every remaining snapshot classifies |
| Classifier.Analyse | main.py:77-112 | the analysis raises exactly when some snapshot fails to classify |
| Classifier.ClassifyReadsSnapshot | main.py:87-112 | a classified snapshot's type name, removals and addition sizes are the ones read directly off its JSON |
| Classifier.ClassifyAdditionsOfType | main.py:106-107 | per node type, the classified additions are exactly the entries of that type, with their sizes, in order |
| Classifier.ClassifyReadsAdditions | main.py:104-111 | per node type, a classified snapshot's additions are its `data["adds"]` entries of that type |
| Classifier.EmptyTallyAccountsForNothing | main.py:78-82 | the initial tallies account for an empty recording |
| Classifier.ApplyCountsOneType | main.py:87-90 | every processed snapshot leaves every other type count unchanged, so the sum of the type counts grows by exactly 1 |
| Classifier.ApplyCountsSource | main.py:92-102 | an incremental snapshot files one item of its data's size under its own source and changes no other source; the source totals grow by 1 and by that size |
| Classifier.ApplyRecordsPerType | main.py:106-111 | per node type, a snapshot records exactly its additions of that type |
| Classifier.ApplyKeepsAdditionsInStep | main.py:106-112 | the length and the sum of `addition_sizes` stay equal to the total count and the total size of the per-node-type tallies |
| Classifier.ApplyKeepsConsistent | main.py:86-112 | every classified snapshot preserves the counting invariants |
| Classifier.SourcesStep | main.py:92-102 | one snapshot moves each source tally exactly as the reading off the JSON grows |
| Classifier.NodesStep | main.py:104-111 | one snapshot moves each node-type tally exactly as the reading off the JSON grows |
| Classifier.TalliesStep | main.py:92-111 | one snapshot moves each source and node-type tally exactly as the readings off the JSON grow |
| Classifier.CountsStep | main.py:86-112 | one snapshot keeps the type counts, the removal count, `addition_sizes` and the counting invariants in step with the readings off the JSON |
| Classifier.RecordAdditionsKeepsNoEmptyKeys | main.py:106-111 | the inner loop creates a node-type key only together with a first item under it |
| Classifier.ApplyKeepsNoEmptyKeys | main.py:87-111 | no snapshot leaves a key in any dictionary with nothing counted under it |
| Classifier.KeysFromNoEmptyKeys | main.py:88-111 | given tallies that match the readings, "no key holds an empty count" and "a key is present exactly when its reading counts something" are equivalent |
| Classifier.KeysStep | main.py:88-111 | one snapshot keeps every dictionary's key set equal to the keys its readings count something under |
| Classifier.LoopStep | main.py:86-112 | one turn of the loop keeps the tallies accounting for the snapshots read so far |
| Classifier.AnalyseExportedRecording | main.py:77-112 | the loop computes the fold `Analyse`. On success, the tallies account for the recording as read directly off its JSON: counts per type name, one item per incremental snapshot under its source, one item per `adds` entry under its node type, all addition sizes in order, and the sum of `len(removes)` over mutation snapshots; no dictionary holds a key under which nothing was counted. The counting invariants hold too |
| ClassifierLaws.MissingTypeIsUnknown | main.py:87 | a snapshot without a `type` key is classified `"Unknown"` and looked at no further |
| ClassifierLaws.TypeCodeLookup | main.py:87 | an integer `type` outside -1 and 1..6 raises `KeyError` naming it; a mapped code other than 3 classifies with no further lookups |
| ClassifierLaws.SourceCodeLookup | main.py:93-95 | a missing `source` raises `KeyError("source")`, and an unmapped integer source raises `KeyError` naming the code |
| ClassifierLaws.NodeTypeLookup | main.py:107 | an addition without `node` raises `KeyError("node")`; an integer node type in 0..11 classifies to its table name and the entry's size, any other raises `KeyError` naming it |
| ClassifierLaws.BooleanCodes | main.py:87 | in each of the three tables, `true` and `false` find what 1 and 0 find, and a missing entry's `KeyError` names the boolean |
| ClassifierLaws.MergeIsCombine | analysis.py:89-130 | merging the loop's tallies is `Analysis.__add__` restricted to the fields the loop fills, with the removal counts added |
| ClassifierLaws.ApplyMerge | main.py:86-112 | processing a snapshot into merged tallies is the same as merging with the tallies it was processed into |
| ClassifierLaws.AnalyseSplits | main.py:86-112 | analysing `s1 + s2` fails exactly when a part fails, with the first part's error first; otherwise it equals the merge of the two parts' tallies |

## Left out

- `sizeof_fmt` (`analysis.py:14-19`, `main.py:54-59`): floating-point formatting for
  display only.
- `Analysis.__str__`, `Analysis.__repr__`, `SizedCount.__str__`/`__repr__`: string
  rendering with `datetime`. This includes the splatting of several dictionaries into
  one before the top-ten view.
- TopTen.TopTenSized: returns the list of entries, not the `"\n".join` of their
  renderings. The input is a sequence of entries in the dictionary's iteration order,
  because Dafny maps have no order.
- `main.py`'s own `SizedCount` class (`main.py:62-74`): its `__add__` is identical to the
  one in `analysis.py`, so `SizedCounts.SizedCount` models both.
- File opening, `ijson` streaming and the `print` calls of `analyse_exported_recording`:
  I/O. The input is the already-parsed array at `data.snapshots`. The tallies are
  returned rather than printed.
- `len(json.dumps(...))`: a foreign serialiser. It is the parameter `size: Json -> nat`,
  and nothing about its values is assumed.
- Non-integral numbers: the parser hands them over as decimals, and they are not part of
  `JsonValues.Json`. A code such as `3.0` would find table entry 3 in Python; the model
  has no such value.
- Classifier.AnalyseExportedRecording: partial tallies are not modelled. The Python loop
  has already raised one type count when a later lookup of the same snapshot raises.
  Nothing is printed on an exception, so only the exception is returned.
- `timestamp-conversion.py`: date arithmetic, floats and I/O, outside the two cores.
- The remaining parts of the analyser are not part of this model: plugin and console-log
  fingerprinting, attribute and text mutations, decompression, and the multi-file and
  line-by-line drivers. Only their fields in `Analysis` and its merge are modelled.

=== FILE: analysis.dfy ===
/** The aggregate accumulator: one `Analysis` per unit of work, merged pairwise
    into a grand total. */
module Analyses {
  import opened Wrappers
  import opened SizedCounts
  import opened SizedMaps

  /** One input line that failed to decode: where it was and how it ended. */
  datatype UnterminatedLine = UnterminatedLine(filePath: string, lineIndex: int, lineTail: string)

  datatype Analysis = Analysis(
    messageTypeCounts: map<string, int>,
    incrementalSnapshotEventSourceCounts: map<string, SizedCount>,
    mutationAdditionCounts: map<string, SizedCount>,
    groupedMutationAttributesCounts: map<string, SizedCount>,
    individualMutationAttributesCounts: map<string, SizedCount>,
    pluginCounts: map<string, SizedCount>,
    consoleLogCounts: map<string, SizedCount>,
    additionSizes: seq<int>,
    mutationRemovalCount: SizedCount,
    textMutationCount: SizedCount,
    unterminatedLines: seq<UnterminatedLine>,
    firstTimestamp: Option<int>,
    lastTimestamp: Option<int>,
    fullSnapshotTimestamps: seq<int>,
    isAttachIFrameCount: int)

  /** `Analysis.empty()`. */
  function Empty(): (r: Analysis)
    ensures r.messageTypeCounts == map[] && r.additionSizes == [] && r.unterminatedLines == []
    ensures r.firstTimestamp == None && r.lastTimestamp == None
  {
    Analysis(map[], map[], map[], map[], map[], map[], map[], [], Zero, Zero, [], None, None, [], 0)
  }

  /** `min_of_two_timestamps`: an absent timestamp is neutral. */
  function EarliestOf(a: Option<int>, b: Option<int>): (r: Option<int>)
    ensures a == None ==> r == b
    ensures b == None ==> r == a
    ensures a.Some? && b.Some? ==>
              (r.Some? && r.value <= a.value && r.value <= b.value && (r.value == a.value || r.value == b.value))
  {
    if a.None? then b
    else if b.None? then a
    else if a.value <= b.value then a else b
  }

  /** `max_of_two_timestamps`: an absent timestamp is neutral. */
  function LatestOf(a: Option<int>, b: Option<int>): (r: Option<int>)
    ensures a == None ==> r == b
    ensures b == None ==> r == a
    ensures a.Some? && b.Some? ==>
              (r.Some? && r.value >= a.value && r.value >= b.value && (r.value == a.value || r.value == b.value))
  {
    if a.None? then b
    else if b.None? then a
    else if a.value >= b.value then a else b
  }

  /** `Analysis.__add__`: dictionaries merge key-wise, scalars add, lists
      concatenate left then right, timestamps widen. */
  function Combine(a: Analysis, b: Analysis): (r: Analysis)
    ensures WindowOrdered(a) && WindowOrdered(b) ==> WindowOrdered(r)
  {
    Analysis(
      CombineCounts(a.messageTypeCounts, b.messageTypeCounts),
      CombineDicts(a.incrementalSnapshotEventSourceCounts, b.incrementalSnapshotEventSourceCounts),
      CombineDicts(a.mutationAdditionCounts, b.mutationAdditionCounts),
      CombineDicts(a.groupedMutationAttributesCounts, b.groupedMutationAttributesCounts),
      CombineDicts(a.individualMutationAttributesCounts, b.individualMutationAttributesCounts),
      CombineDicts(a.pluginCounts, b.pluginCounts),
      CombineDicts(a.consoleLogCounts, b.consoleLogCounts),
      a.additionSizes + b.additionSizes,
      a.mutationRemovalCount.Combine(b.mutationRemovalCount),
      a.textMutationCount.Combine(b.textMutationCount),
      a.unterminatedLines + b.unterminatedLines,
      EarliestOf(a.firstTimestamp, b.firstTimestamp),
      LatestOf(a.lastTimestamp, b.lastTimestamp),
      a.fullSnapshotTimestamps + b.fullSnapshotTimestamps,
      a.isAttachIFrameCount + b.isAttachIFrameCount)
  }

  /** Scalars of the merge are sums of the operands' scalars. */
  lemma CombineSumsScalars(a: Analysis, b: Analysis)
    ensures var c := Combine(a, b);
      && c.mutationRemovalCount.count == a.mutationRemovalCount.count + b.mutationRemovalCount.count
      && c.mutationRemovalCount.size == a.mutationRemovalCount.size + b.mutationRemovalCount.size
      && c.textMutationCount.count == a.textMutationCount.count + b.textMutationCount.count
      && c.textMutationCount.size == a.textMutationCount.size + b.textMutationCount.size
      && c.isAttachIFrameCount == a.isAttachIFrameCount + b.isAttachIFrameCount
  {
  }

  /** List fields of the merge hold the left operand's entries, then the right's. */
  lemma CombineConcatenatesLists(a: Analysis, b: Analysis)
    ensures var c := Combine(a, b);
      && |c.additionSizes| == |a.additionSizes| + |b.additionSizes|
      && c.additionSizes[..|a.additionSizes|] == a.additionSizes
      && c.additionSizes[|a.additionSizes|..] == b.additionSizes
      && c.unterminatedLines[..|a.unterminatedLines|] == a.unterminatedLines
      && c.unterminatedLines[|a.unterminatedLines|..] == b.unterminatedLines
      && c.fullSnapshotTimestamps[..|a.fullSnapshotTimestamps|] == a.fullSnapshotTimestamps
      && c.fullSnapshotTimestamps[|a.fullSnapshotTimestamps|..] == b.fullSnapshotTimestamps
  {
  }

  /** Totals over the dictionaries are additive too. */
  lemma CombineAddsTotals(a: Analysis, b: Analysis)
    ensures var c := Combine(a, b);
      && Total(c.messageTypeCounts) == Total(a.messageTypeCounts) + Total(b.messageTypeCounts)
      && CountTotal(c.incrementalSnapshotEventSourceCounts)
         == CountTotal(a.incrementalSnapshotEventSourceCounts) + CountTotal(b.incrementalSnapshotEventSourceCounts)
      && CountTotal(c.mutationAdditionCounts)
         == CountTotal(a.mutationAdditionCounts) + CountTotal(b.mutationAdditionCounts)
      && SizeTotal(c.mutationAdditionCounts)
         == SizeTotal(a.mutationAdditionCounts) + SizeTotal(b.mutationAdditionCounts)
  {
    TotalCombineCounts(a.messageTypeCounts, b.messageTypeCounts);
    TotalsOfCombine(a.incrementalSnapshotEventSourceCounts, b.incrementalSnapshotEventSourceCounts);
    TotalsOfCombine(a.mutationAdditionCounts, b.mutationAdditionCounts);
  }

  // ---------------------------------------------------------------------------
  // Monoid laws. Each is proved in two halves, dictionaries apart from the
  // other fields, and the halves are joined field by field.

  /** Agreement on the seven dictionaries. */
  predicate SameDicts(l: Analysis, r: Analysis) {
    && l.messageTypeCounts == r.messageTypeCounts
    && l.incrementalSnapshotEventSourceCounts == r.incrementalSnapshotEventSourceCounts
    && l.mutationAdditionCounts == r.mutationAdditionCounts
    && l.groupedMutationAttributesCounts == r.groupedMutationAttributesCounts
    && l.individualMutationAttributesCounts == r.individualMutationAttributesCounts
    && l.pluginCounts == r.pluginCounts
    && l.consoleLogCounts == r.consoleLogCounts
  }

  /** Agreement on the scalar and timestamp fields. */
  predicate SameScalars(l: Analysis, r: Analysis) {
    && l.mutationRemovalCount == r.mutationRemovalCount
    && l.textMutationCount == r.textMutationCount
    && l.firstTimestamp == r.firstTimestamp
    && l.lastTimestamp == r.lastTimestamp
    && l.isAttachIFrameCount == r.isAttachIFrameCount
  }

  /** Agreement on the three list fields. */
  predicate SameLists(l: Analysis, r: Analysis) {
    && l.additionSizes == r.additionSizes
    && l.unterminatedLines == r.unterminatedLines
    && l.fullSnapshotTimestamps == r.fullSnapshotTimestamps
  }

  lemma SameFieldsAreEqual(l: Analysis, r: Analysis)
    requires SameDicts(l, r) && SameScalars(l, r) && SameLists(l, r)
    ensures l == r
  {
  }

  lemma EmptyIsIdentityOnDicts(a: Analysis)
    ensures SameDicts(Combine(Empty(), a), a) && SameDicts(Combine(a, Empty()), a)
  {
    CombineCountsIdentity(a.messageTypeCounts);
    CombineDictsIdentity(a.incrementalSnapshotEventSourceCounts);
    CombineDictsIdentity(a.mutationAdditionCounts);
    CombineDictsIdentity(a.groupedMutationAttributesCounts);
    CombineDictsIdentity(a.individualMutationAttributesCounts);
    CombineDictsIdentity(a.pluginCounts);
    CombineDictsIdentity(a.consoleLogCounts);
  }

  lemma EmptyIsIdentityOnRest(a: Analysis)
    ensures SameScalars(Combine(Empty(), a), a) && SameScalars(Combine(a, Empty()), a)
    ensures SameLists(Combine(Empty(), a), a) && SameLists(Combine(a, Empty()), a)
  {
    ZeroIsIdentity(a.mutationRemovalCount);
    ZeroIsIdentity(a.textMutationCount);
    assert [] + a.additionSizes == a.additionSizes + [] == a.additionSizes;
    assert [] + a.unterminatedLines == a.unterminatedLines + [] == a.unterminatedLines;
    assert [] + a.fullSnapshotTimestamps == a.fullSnapshotTimestamps + [] == a.fullSnapshotTimestamps;
  }

  /** `Analysis.empty()` is a two-sided identity of the merge. */
  lemma EmptyIsIdentity(a: Analysis)
    ensures Combine(Empty(), a) == a
    ensures Combine(a, Empty()) == a
  {
    EmptyIsIdentityOnDicts(a);
    EmptyIsIdentityOnRest(a);
    SameFieldsAreEqual(Combine(Empty(), a), a);
    SameFieldsAreEqual(Combine(a, Empty()), a);
  }

  lemma AssociativeOnDicts(a: Analysis, b: Analysis, c: Analysis)
    ensures SameDicts(Combine(Combine(a, b), c), Combine(a, Combine(b, c)))
  {
    CombineCountsAssociative(a.messageTypeCounts, b.messageTypeCounts, c.messageTypeCounts);
    CombineDictsAssociative(a.incrementalSnapshotEventSourceCounts, b.incrementalSnapshotEventSourceCounts,
                            c.incrementalSnapshotEventSourceCounts);
    CombineDictsAssociative(a.mutationAdditionCounts, b.mutationAdditionCounts, c.mutationAdditionCounts);
    CombineDictsAssociative(a.groupedMutationAttributesCounts, b.groupedMutationAttributesCounts,
                            c.groupedMutationAttributesCounts);
    CombineDictsAssociative(a.individualMutationAttributesCounts, b.individualMutationAttributesCounts,
                            c.individualMutationAttributesCounts);
    CombineDictsAssociative(a.pluginCounts, b.pluginCounts, c.pluginCounts);
    CombineDictsAssociative(a.consoleLogCounts, b.consoleLogCounts, c.consoleLogCounts);
  }

  lemma AssociativeOnRest(a: Analysis, b: Analysis, c: Analysis)
    ensures SameScalars(Combine(Combine(a, b), c), Combine(a, Combine(b, c)))
    ensures SameLists(Combine(Combine(a, b), c), Combine(a, Combine(b, c)))
  {
    assert (a.additionSizes + b.additionSizes) + c.additionSizes == a.additionSizes + (b.additionSizes + c.additionSizes);
    assert (a.unterminatedLines + b.unterminatedLines) + c.unterminatedLines
        == a.unterminatedLines + (b.unterminatedLines + c.unterminatedLines);
    assert (a.fullSnapshotTimestamps + b.fullSnapshotTimestamps) + c.fullSnapshotTimestamps
        == a.fullSnapshotTimestamps + (b.fullSnapshotTimestamps + c.fullSnapshotTimestamps);
  }

  /** The order in which units of work are grouped never changes the total. */
  lemma CombineAssociative(a: Analysis, b: Analysis, c: Analysis)
    ensures Combine(Combine(a, b), c) == Combine(a, Combine(b, c))
  {
    AssociativeOnDicts(a, b, c);
    AssociativeOnRest(a, b, c);
    SameFieldsAreEqual(Combine(Combine(a, b), c), Combine(a, Combine(b, c)));
  }

  lemma CommutativeOnDicts(a: Analysis, b: Analysis)
    ensures SameDicts(Combine(a, b), Combine(b, a))
  {
    CombineCountsCommutative(a.messageTypeCounts, b.messageTypeCounts);
    CombineDictsCommutative(a.incrementalSnapshotEventSourceCounts, b.incrementalSnapshotEventSourceCounts);
    CombineDictsCommutative(a.mutationAdditionCounts, b.mutationAdditionCounts);
    CombineDictsCommutative(a.groupedMutationAttributesCounts, b.groupedMutationAttributesCounts);
    CombineDictsCommutative(a.individualMutationAttributesCounts, b.individualMutationAttributesCounts);
    CombineDictsCommutative(a.pluginCounts, b.pluginCounts);
    CombineDictsCommutative(a.consoleLogCounts, b.consoleLogCounts);
  }

  lemma CommutativeOnScalars(a: Analysis, b: Analysis)
    ensures SameScalars(Combine(a, b), Combine(b, a))
  {
    CombineCommutative(a.mutationRemovalCount, b.mutationRemovalCount);
    CombineCommutative(a.textMutationCount, b.textMutationCount);
  }

  /** The list fields of two merges are permutations of each other. */
  predicate ListsArePermutations(l: Analysis, r: Analysis) {
    && multiset(l.additionSizes) == multiset(r.additionSizes)
    && multiset(l.unterminatedLines) == multiset(r.unterminatedLines)
    && multiset(l.fullSnapshotTimestamps) == multiset(r.fullSnapshotTimestamps)
  }

  /** The merge commutes on every field except the list fields, which it
      concatenates in order; there the two results are permutations of each other. */
  lemma CombineCommutesUpToListOrder(a: Analysis, b: Analysis)
    ensures SameDicts(Combine(a, b), Combine(b, a))
    ensures SameScalars(Combine(a, b), Combine(b, a))
    ensures ListsArePermutations(Combine(a, b), Combine(b, a))
  {
    CommutativeOnDicts(a, b);
    CommutativeOnScalars(a, b);
  }

  /** The merge commutes outright exactly when each list field reads the same
      in both concatenation orders. */
  lemma CombineCommutesIffListsCommute(a: Analysis, b: Analysis)
    ensures Combine(a, b) == Combine(b, a) <==>
      && a.additionSizes + b.additionSizes == b.additionSizes + a.additionSizes
      && a.unterminatedLines + b.unterminatedLines == b.unterminatedLines + a.unterminatedLines
      && a.fullSnapshotTimestamps + b.fullSnapshotTimestamps == b.fullSnapshotTimestamps + a.fullSnapshotTimestamps
  {
    CommutativeOnDicts(a, b);
    CommutativeOnScalars(a, b);
    if SameLists(Combine(a, b), Combine(b, a)) {
      SameFieldsAreEqual(Combine(a, b), Combine(b, a));
    }
  }

  /** Two units of work that each recorded one addition of a different size
      merge to different analyses in the two orders. */
  lemma CombineIsNotCommutative(a: Analysis, b: Analysis)
    requires |a.additionSizes| == 1 && |b.additionSizes| == 1
    requires a.additionSizes[0] != b.additionSizes[0]
    ensures Combine(a, b) != Combine(b, a)
  {
    assert Combine(a, b).additionSizes[0] != Combine(b, a).additionSizes[0];
  }

  /** A session window: either no timestamp seen yet, or first <= last. */
  predicate WindowOrdered(a: Analysis) {
    || (a.firstTimestamp.None? && a.lastTimestamp.None?)
    || (a.firstTimestamp.Some? && a.lastTimestamp.Some? && a.firstTimestamp.value <= a.lastTimestamp.value)
  }

  /** Merging two well-formed session windows gives a well-formed window that
      spans both. */
  lemma CombineKeepsWindowOrdered(a: Analysis, b: Analysis)
    requires WindowOrdered(a) && WindowOrdered(b)
    ensures WindowOrdered(Combine(a, b))
    ensures a.firstTimestamp.Some? ==> Combine(a, b).firstTimestamp.value <= a.firstTimestamp.value
    ensures b.firstTimestamp.Some? ==> Combine(a, b).firstTimestamp.value <= b.firstTimestamp.value
    ensures a.lastTimestamp.Some? ==> Combine(a, b).lastTimestamp.value >= a.lastTimestamp.value
    ensures b.lastTimestamp.Some? ==> Combine(a, b).lastTimestamp.value >= b.lastTimestamp.value
  {
  }

  /** The timestamp widenings are themselves associative and commutative. */
  lemma WideningLaws(a: Option<int>, b: Option<int>, c: Option<int>)
    ensures EarliestOf(EarliestOf(a, b), c) == EarliestOf(a, EarliestOf(b, c))
    ensures EarliestOf(a, b) == EarliestOf(b, a)
    ensures LatestOf(LatestOf(a, b), c) == LatestOf(a, LatestOf(b, c))
    ensures LatestOf(a, b) == LatestOf(b, a)
  {
  }
}

=== FILE: classifier.dfy ===
/** The classification and accumulation loop of `analyse_exported_recording`:
    every snapshot of a recording is classified by type, incremental snapshots
    by source, and DOM additions of mutations by node type, and the results
    are tallied. */
module Classifier {
  import opened Wrappers
  import opened SizedCounts
  import opened SizedMaps
  import opened JsonValues
  import opened CodeTables

  // ---------------------------------------------------------------------------
  // What one snapshot contributes

  /** One added DOM node: its node type name and the serialised size of the
      whole addition entry. */
  datatype AddedNode = AddedNode(nodeType: string, size: nat)

  /** What a `Mutation` incremental snapshot contributes. */
  datatype Mutation = Mutation(removals: nat, additions: seq<AddedNode>)

  /** What an incremental snapshot contributes: its source name, the serialised
      size of its `data`, and the mutation part when the source is `Mutation`. */
  datatype Incremental = Incremental(source: string, dataSize: nat, mutation: Option<Mutation>)

  /** The classification of one snapshot. */
  datatype Event = Event(eventType: string, incremental: Option<Incremental>)

  /** Names of the types and sources the loop branches on. */
  const IncrementalSnapshot: string := "IncrementalSnapshot"
  const MutationSource: string := "Mutation"

  /** An incremental part exactly for incremental snapshots, a mutation part
      exactly for `Mutation`-sourced ones, and every name drawn from its table. */
  predicate WellFormed(ev: Event) {
    && ev.eventType in EventTypes.Values
    && (ev.incremental.Some? <==> ev.eventType == IncrementalSnapshot)
    && (ev.incremental.Some? ==>
          && ev.incremental.value.source in IncrementalSnapshotEventSources.Values
          && (ev.incremental.value.mutation.Some? <==> ev.incremental.value.source == MutationSource)
          && (ev.incremental.value.mutation.Some? ==>
                forall a :: a in ev.incremental.value.mutation.value.additions ==> a.nodeType in NodeTypes.Values))
  }

  /** The entries `for addition in adds` visits. A list yields its items and a
      string its one-character strings; a dictionary yields its keys, which are
      strings too, so a non-empty one fails at the `["node"]` subscript that
      follows, as the one-character strings do. */
  function AdditionEntries(adds: Json): (r: Result<seq<Json>, Error>)
    ensures adds.Arr? ==> r == Ok(adds.items)
    ensures adds.Str? ==> r == Ok(seq(|adds.s|, i requires 0 <= i < |adds.s| => Str([adds.s[i]])))
    ensures adds.Obj? ==> (r.Ok? <==> adds.fields == map[]) && (r.Ok? ==> r.value == [])
    ensures adds.Null? || adds.Int? || adds.Bool? ==> r == Err(TypeError)
  {
    match adds
    case Arr(items) => Ok(items)
    case Str(s) => Ok(seq(|s|, i requires 0 <= i < |s| => Str([s[i]])))
    case Obj(fields) => if fields == map[] then Ok([]) else Err(TypeError)
    case _ => Err(TypeError)
  }

  /** `node_types[addition["node"]["type"]]`, sized by the whole entry. */
  function ClassifyAddition(addition: Json, size: Json -> nat): (r: Result<AddedNode, Error>)
    ensures r.Ok? ==> r.value.nodeType in NodeTypes.Values && r.value.size == size(addition)
    ensures r.Ok? <==>
      && addition.Obj? && "node" in addition.fields
      && addition.fields["node"].Obj? && "type" in addition.fields["node"].fields
      && Lookup(NodeTypes, addition.fields["node"].fields["type"]).Ok?
  {
    var node :- Index(addition, "node");
    var code :- Index(node, "type");
    var nodeType :- Lookup(NodeTypes, code);
    Ok(AddedNode(nodeType, size(addition)))
  }

  /** Classifies the additions in order; the first one that fails aborts. */
  function ClassifyAdditions(entries: seq<Json>, size: Json -> nat): (r: Result<seq<AddedNode>, Error>)
    ensures r.Ok? <==> forall i :: 0 <= i < |entries| ==> ClassifyAddition(entries[i], size).Ok?
    ensures r.Ok? ==> |r.value| == |entries|
    ensures r.Ok? ==> forall i :: 0 <= i < |entries| ==> r.value[i] == ClassifyAddition(entries[i], size).value
    ensures r.Err? ==>
              exists i :: 0 <= i < |entries| && ClassifyAddition(entries[i], size) == Err(r.error)
                          && forall j :: 0 <= j < i ==> ClassifyAddition(entries[j], size).Ok?
  {
    if entries == [] then Ok([])
    else
      var first :- ClassifyAddition(entries[0], size);
      var rest :- ClassifyAdditions(entries[1..], size);
      Ok([first] + rest)
  }

  /** The `Mutation` branch: `len(data["removes"])`, then every entry of
      `data["adds"]`. */
  function ClassifyMutation(data: Json, size: Json -> nat): (r: Result<Mutation, Error>)
    ensures r.Ok? ==> forall a :: a in r.value.additions ==> a.nodeType in NodeTypes.Values
    ensures r.Ok? ==> Index(data, "removes").Ok? && Length(Index(data, "removes").value) == Ok(r.value.removals)
    ensures r.Ok? ==>
              && Index(data, "adds").Ok?
              && AdditionEntries(Index(data, "adds").value).Ok?
              && ClassifyAdditions(AdditionEntries(Index(data, "adds").value).value, size) == Ok(r.value.additions)
    ensures r.Ok? <==>
              && Index(data, "removes").Ok? && Length(Index(data, "removes").value).Ok?
              && Index(data, "adds").Ok? && AdditionEntries(Index(data, "adds").value).Ok?
              && ClassifyAdditions(AdditionEntries(Index(data, "adds").value).value, size).Ok?
    ensures Index(data, "removes").Err? ==> r == Err(Index(data, "removes").error)
    ensures (Index(data, "removes").Ok? && Length(Index(data, "removes").value).Err?) ==> r == Err(TypeError)
    ensures (Index(data, "removes").Ok? && Length(Index(data, "removes").value).Ok? && Index(data, "adds").Err?) ==>
              r == Err(Index(data, "adds").error)
    ensures (Index(data, "removes").Ok? && Length(Index(data, "removes").value).Ok? && Index(data, "adds").Ok?
             && AdditionEntries(Index(data, "adds").value).Err?) ==>
              r == Err(TypeError)
    ensures (Index(data, "removes").Ok? && Length(Index(data, "removes").value).Ok? && Index(data, "adds").Ok?
             && AdditionEntries(Index(data, "adds").value).Ok?
             && ClassifyAdditions(AdditionEntries(Index(data, "adds").value).value, size).Err?) ==>
              r == Err(ClassifyAdditions(AdditionEntries(Index(data, "adds").value).value, size).error)
  {
    var removes :- Index(data, "removes");
    var removals :- Length(removes);
    var adds :- Index(data, "adds");
    var entries :- AdditionEntries(adds);
    var additions :- ClassifyAdditions(entries, size);
    Ok(Mutation(removals, additions))
  }

  /** The `IncrementalSnapshot` branch: the source of `snapshot["data"]`, the
      size of that data, and the mutation part for `Mutation` sources. */
  function ClassifyIncremental(snapshot: Json, size: Json -> nat): (r: Result<Incremental, Error>)
    ensures r.Ok? ==> r.value.source in IncrementalSnapshotEventSources.Values
    ensures r.Ok? ==> (r.value.mutation.Some? <==> r.value.source == MutationSource)
    ensures r.Ok? ==> Index(snapshot, "data").Ok? && r.value.dataSize == size(Index(snapshot, "data").value)
    ensures r.Ok? ==> SourceName(snapshot) == Some(r.value.source)
    ensures r.Ok? && r.value.mutation.Some? ==>
              ClassifyMutation(Index(snapshot, "data").value, size) == Ok(r.value.mutation.value)
    ensures r.Ok? && r.value.mutation.Some? ==>
              forall a :: a in r.value.mutation.value.additions ==> a.nodeType in NodeTypes.Values
    ensures r.Ok? <==>
              && SourceName(snapshot).Some?
              && (SourceName(snapshot) == Some(MutationSource) ==> ClassifyMutation(Index(snapshot, "data").value, size).Ok?)
    ensures Index(snapshot, "data").Err? ==> r == Err(Index(snapshot, "data").error)
    ensures (Index(snapshot, "data").Ok? && Index(Index(snapshot, "data").value, "source").Err?) ==>
              r == Err(Index(Index(snapshot, "data").value, "source").error)
    ensures (Index(snapshot, "data").Ok? && Index(Index(snapshot, "data").value, "source").Ok?
             && Lookup(IncrementalSnapshotEventSources, Index(Index(snapshot, "data").value, "source").value).Err?) ==>
              r == Err(Lookup(IncrementalSnapshotEventSources, Index(Index(snapshot, "data").value, "source").value).error)
    ensures (SourceName(snapshot) == Some(MutationSource) && ClassifyMutation(Index(snapshot, "data").value, size).Err?) ==>
              r == Err(ClassifyMutation(Index(snapshot, "data").value, size).error)
  {
    var data :- Index(snapshot, "data");
    var code :- Index(data, "source");
    var source :- Lookup(IncrementalSnapshotEventSources, code);
    if source == MutationSource then
      var mutation :- ClassifyMutation(data, size);
      Ok(Incremental(source, size(data), Some(mutation)))
    else
      Ok(Incremental(source, size(data), None))
  }

  // ---------------------------------------------------------------------------
  // What a snapshot says, read directly off its JSON

  /** The name `event_types` gives the snapshot's `type` (-1 when absent), when
      the lookup succeeds. */
  function TypeName(snapshot: Json): Option<string> {
    var code := GetOr(snapshot, "type", Int(-1));
    if code.Ok? && Lookup(EventTypes, code.value).Ok? then Some(Lookup(EventTypes, code.value).value) else None
  }

  /** The name the source table gives `snapshot["data"]["source"]`, when every
      step succeeds. */
  function SourceName(snapshot: Json): Option<string> {
    var data := Index(snapshot, "data");
    var code := if data.Ok? then Index(data.value, "source") else Err(TypeError);
    if code.Ok? && Lookup(IncrementalSnapshotEventSources, code.value).Ok?
    then Some(Lookup(IncrementalSnapshotEventSources, code.value).value)
    else None
  }

  /** `snapshot["data"]` of an incremental snapshot whose source is `Mutation`. */
  function MutationData(snapshot: Json): Option<Json> {
    if TypeName(snapshot) == Some(IncrementalSnapshot) && SourceName(snapshot) == Some(MutationSource)
       && Index(snapshot, "data").Ok?
    then Some(Index(snapshot, "data").value)
    else None
  }

  /** `len(data["removes"])` of a mutation snapshot; 0 for any other snapshot. */
  function RemovesOf(snapshot: Json): nat {
    match MutationData(snapshot)
    case None => 0
    case Some(data) =>
      var removes := Index(data, "removes");
      if removes.Ok? && Length(removes.value).Ok? then Length(removes.value).value else 0
  }

  /** The name `node_types` gives `entry["node"]["type"]`, when every step
      succeeds. */
  function NodeTypeName(entry: Json): Option<string> {
    var node := Index(entry, "node");
    var code := if node.Ok? then Index(node.value, "type") else Err(TypeError);
    if code.Ok? && Lookup(NodeTypes, code.value).Ok? then Some(Lookup(NodeTypes, code.value).value) else None
  }

  /** The serialised sizes of the entries of the given node type, in order. */
  function SizesOfType(entries: seq<Json>, nodeType: string, size: Json -> nat): seq<int> {
    if entries == [] then []
    else (if NodeTypeName(entries[0]) == Some(nodeType) then [size(entries[0]) as int] else [])
         + SizesOfType(entries[1..], nodeType, size)
  }

  /** The `data["adds"]` entries of a mutation snapshot; none for any other. */
  function AddedEntries(snapshot: Json): seq<Json> {
    match MutationData(snapshot)
    case None => []
    case Some(data) =>
      var adds := Index(data, "adds");
      var entries := if adds.Ok? then AdditionEntries(adds.value) else Err(TypeError);
      if entries.Ok? then entries.value else []
  }

  /** The serialised sizes of the entries of `data["adds"]` of a mutation
      snapshot, in order; nothing for any other snapshot. */
  function AddedSizes(snapshot: Json, size: Json -> nat): seq<int> {
    var entries := AddedEntries(snapshot);
    seq(|entries|, i requires 0 <= i < |entries| => size(entries[i]) as int)
  }

  /** Classifies one snapshot, `event_types[snapshot.get("type", -1)]` first. */
  function Classify(snapshot: Json, size: Json -> nat): (r: Result<Event, Error>)
    ensures r.Ok? ==> WellFormed(r.value)
    ensures r.Ok? ==> TypeName(snapshot) == Some(r.value.eventType)
    ensures r.Ok? && r.value.incremental.Some? ==> ClassifyIncremental(snapshot, size) == Ok(r.value.incremental.value)
    ensures r.Ok? <==>
              && TypeName(snapshot).Some?
              && (TypeName(snapshot) == Some(IncrementalSnapshot) ==> ClassifyIncremental(snapshot, size).Ok?)
    ensures GetOr(snapshot, "type", Int(-1)).Err? ==> r == Err(AttributeError)
    ensures GetOr(snapshot, "type", Int(-1)).Ok? && Lookup(EventTypes, GetOr(snapshot, "type", Int(-1)).value).Err? ==>
              r == Err(Lookup(EventTypes, GetOr(snapshot, "type", Int(-1)).value).error)
    ensures TypeName(snapshot) == Some(IncrementalSnapshot) && ClassifyIncremental(snapshot, size).Err? ==>
              r == Err(ClassifyIncremental(snapshot, size).error)
  {
    var code :- GetOr(snapshot, "type", Int(-1));
    var eventType :- Lookup(EventTypes, code);
    if eventType == IncrementalSnapshot then
      var incremental :- ClassifyIncremental(snapshot, size);
      Ok(Event(eventType, Some(incremental)))
    else
      Ok(Event(eventType, None))
  }

  // ---------------------------------------------------------------------------
  // The running tallies

  /** The loop's accumulators. */
  datatype Tally = Tally(
    messageTypeCounts: map<string, int>,
    incrementalSnapshotEventSourceCounts: map<string, SizedCount>,
    mutationAdditionCounts: map<string, SizedCount>,
    additionSizes: seq<int>,
    mutationRemovalCount: int)

  const EmptyTally: Tally := Tally(map[], map[], map[], [], 0)

  /** The sizes of some additions, in order. */
  function SizesOf(additions: seq<AddedNode>): (r: seq<int>)
    ensures |r| == |additions|
    ensures forall i :: 0 <= i < |additions| ==> r[i] == additions[i].size
  {
    if additions == [] then [] else [additions[0].size] + SizesOf(additions[1..])
  }

  /** The additions of the given node type, in order. */
  function OfType(additions: seq<AddedNode>, nodeType: string): seq<AddedNode> {
    if additions == [] then []
    else (if additions[0].nodeType == nodeType then [additions[0]] else []) + OfType(additions[1..], nodeType)
  }

  /** One iteration of the inner `for addition in adds` loop: the addition is
      recorded under its node type and its size appended to `addition_sizes`. */
  function RecordAddition(t: Tally, a: AddedNode): (r: Tally)
    ensures r.messageTypeCounts == t.messageTypeCounts
    ensures r.incrementalSnapshotEventSourceCounts == t.incrementalSnapshotEventSourceCounts
    ensures r.mutationRemovalCount == t.mutationRemovalCount
    ensures Get(r.mutationAdditionCounts, a.nodeType) == Get(t.mutationAdditionCounts, a.nodeType).Record(a.size)
    ensures r.additionSizes == t.additionSizes + [a.size]
    ensures r.mutationAdditionCounts.Keys == t.mutationAdditionCounts.Keys + {a.nodeType}
  {
    t.(mutationAdditionCounts := t.mutationAdditionCounts[a.nodeType := Get(t.mutationAdditionCounts, a.nodeType).Record(a.size)],
       additionSizes := t.additionSizes + [a.size])
  }

  /** Each recorded addition is filed under its own node type and no other,
      adds one item and its size to the per-node-type totals, and appends the
      same size to `addition_sizes`. */
  lemma RecordAdditionTotals(t: Tally, a: AddedNode)
    ensures var r := RecordAddition(t, a);
      && (forall k :: k != a.nodeType ==> Get(r.mutationAdditionCounts, k) == Get(t.mutationAdditionCounts, k))
      && CountTotal(r.mutationAdditionCounts) == CountTotal(t.mutationAdditionCounts) + 1
      && SizeTotal(r.mutationAdditionCounts) == SizeTotal(t.mutationAdditionCounts) + a.size
      && |r.additionSizes| == |t.additionSizes| + 1
      && Sum(r.additionSizes) == Sum(t.additionSizes) + a.size
  {
    TotalsOfRecord(t.mutationAdditionCounts, a.nodeType, a.size);
    assert (t.additionSizes + [a.size])[..|t.additionSizes|] == t.additionSizes;
  }

  /** The inner loop over all additions of one mutation. */
  function RecordAdditions(t: Tally, additions: seq<AddedNode>): (r: Tally)
    ensures r.messageTypeCounts == t.messageTypeCounts
    ensures r.incrementalSnapshotEventSourceCounts == t.incrementalSnapshotEventSourceCounts
    ensures r.mutationRemovalCount == t.mutationRemovalCount
    ensures CountTotal(r.mutationAdditionCounts) == CountTotal(t.mutationAdditionCounts) + |additions|
    ensures r.additionSizes == t.additionSizes + SizesOf(additions)
    ensures SizeTotal(r.mutationAdditionCounts) - SizeTotal(t.mutationAdditionCounts)
         == Sum(r.additionSizes) - Sum(t.additionSizes)
    decreases |additions|
  {
    if additions == [] then
      assert t.additionSizes + SizesOf(additions) == t.additionSizes;
      t
    else
      RecordAdditionTotals(t, additions[0]);
      AppendSizesStep(t.additionSizes, additions);
      RecordAdditions(RecordAddition(t, additions[0]), additions[1..])
  }

  lemma AppendSizesStep(sizes: seq<int>, additions: seq<AddedNode>)
    requires additions != []
    ensures (sizes + [additions[0].size]) + SizesOf(additions[1..]) == sizes + SizesOf(additions)
  {
    assert SizesOf(additions) == [additions[0].size] + SizesOf(additions[1..]);
  }

  /** Per node type, the inner loop records exactly the additions of that type,
      in order. */
  lemma {:induction false} RecordAdditionsPerType(t: Tally, additions: seq<AddedNode>, nodeType: string)
    ensures Get(RecordAdditions(t, additions).mutationAdditionCounts, nodeType)
         == RecordAll(Get(t.mutationAdditionCounts, nodeType), SizesOf(OfType(additions, nodeType)))
    decreases |additions|
  {
    if additions != [] {
      var a := additions[0];
      var t1 := RecordAddition(t, a);
      RecordAdditionTotals(t, a);
      RecordAdditionsPerType(t1, additions[1..], nodeType);
      var rest := SizesOf(OfType(additions[1..], nodeType));
      if a.nodeType == nodeType {
        assert OfType(additions, nodeType) == [a] + OfType(additions[1..], nodeType);
        assert SizesOf([a] + OfType(additions[1..], nodeType)) == [a.size] + rest;
        assert ([a.size] + rest)[0] == a.size && ([a.size] + rest)[1..] == rest;
      } else {
        assert OfType(additions, nodeType) == OfType(additions[1..], nodeType);
      }
    }
  }

  /** `message_type_counts[event_type] += 1`, the key starting at 0. */
  function CountType(t: Tally, eventType: string): (r: Tally)
    ensures CountOf(r.messageTypeCounts, eventType) == CountOf(t.messageTypeCounts, eventType) + 1
    ensures r.messageTypeCounts.Keys == t.messageTypeCounts.Keys + {eventType}
    ensures r.incrementalSnapshotEventSourceCounts == t.incrementalSnapshotEventSourceCounts
    ensures r.mutationAdditionCounts == t.mutationAdditionCounts
    ensures r.additionSizes == t.additionSizes && r.mutationRemovalCount == t.mutationRemovalCount
  {
    t.(messageTypeCounts := t.messageTypeCounts[eventType := CountOf(t.messageTypeCounts, eventType) + 1])
  }

  /** `incremental_snapshot_event_source_counts[source] += len(json.dumps(data))`. */
  function CountSource(t: Tally, inc: Incremental): (r: Tally)
    ensures Get(r.incrementalSnapshotEventSourceCounts, inc.source)
         == Get(t.incrementalSnapshotEventSourceCounts, inc.source).Record(inc.dataSize)
    ensures r.incrementalSnapshotEventSourceCounts.Keys == t.incrementalSnapshotEventSourceCounts.Keys + {inc.source}
    ensures r.messageTypeCounts == t.messageTypeCounts
    ensures r.mutationAdditionCounts == t.mutationAdditionCounts
    ensures r.additionSizes == t.additionSizes && r.mutationRemovalCount == t.mutationRemovalCount
  {
    t.(incrementalSnapshotEventSourceCounts :=
         t.incrementalSnapshotEventSourceCounts[inc.source := Get(t.incrementalSnapshotEventSourceCounts, inc.source).Record(inc.dataSize)])
  }

  /** `mutation_removal_count += len(removes)`. */
  function CountRemovals(t: Tally, removals: nat): (r: Tally)
    ensures r.mutationRemovalCount == t.mutationRemovalCount + removals
    ensures r.messageTypeCounts == t.messageTypeCounts
    ensures r.incrementalSnapshotEventSourceCounts == t.incrementalSnapshotEventSourceCounts
    ensures r.mutationAdditionCounts == t.mutationAdditionCounts && r.additionSizes == t.additionSizes
  {
    Tally(t.messageTypeCounts, t.incrementalSnapshotEventSourceCounts, t.mutationAdditionCounts,
          t.additionSizes, t.mutationRemovalCount + removals)
  }

  /** The `Mutation` branch: the removals, then every addition in order. */
  function RecordMutation(t: Tally, m: Mutation): (r: Tally)
    ensures r.mutationRemovalCount == t.mutationRemovalCount + m.removals
    ensures r.additionSizes == t.additionSizes + SizesOf(m.additions)
    ensures CountTotal(r.mutationAdditionCounts) == CountTotal(t.mutationAdditionCounts) + |m.additions|
    ensures r.messageTypeCounts == t.messageTypeCounts
    ensures r.incrementalSnapshotEventSourceCounts == t.incrementalSnapshotEventSourceCounts
  {
    RecordAdditions(CountRemovals(t, m.removals), m.additions)
  }

  /** The additions an event contributes: those of a `Mutation` incremental
      snapshot, none for any other event. */
  function AdditionsOf(ev: Event): seq<AddedNode> {
    match ev.incremental
    case Some(Incremental(_, _, Some(m))) => m.additions
    case _ => []
  }

  /** The removals an event contributes: `len(removes)` for a `Mutation`
      incremental snapshot, nothing for any other event. */
  function Removals(ev: Event): nat {
    match ev.incremental
    case Some(Incremental(_, _, Some(m))) => m.removals
    case _ => 0
  }

  /** One iteration of the outer loop, for a snapshot already classified. */
  function Apply(t: Tally, ev: Event): (r: Tally)
    ensures CountOf(r.messageTypeCounts, ev.eventType) == CountOf(t.messageTypeCounts, ev.eventType) + 1
    ensures r.mutationRemovalCount == t.mutationRemovalCount + Removals(ev)
    ensures r.additionSizes == t.additionSizes + SizesOf(AdditionsOf(ev))
    ensures ev.incremental.None? ==> r.incrementalSnapshotEventSourceCounts == t.incrementalSnapshotEventSourceCounts
    ensures ev.incremental.None? || ev.incremental.value.mutation.None? ==>
              r.mutationAdditionCounts == t.mutationAdditionCounts
  {
    var counted := CountType(t, ev.eventType);
    match ev.incremental
    case None =>
      assert t.additionSizes + SizesOf([]) == t.additionSizes;
      counted
    case Some(inc) =>
      var sourced := CountSource(counted, inc);
      match inc.mutation
      case None =>
        assert t.additionSizes + SizesOf([]) == t.additionSizes;
        sourced
      case Some(m) => RecordMutation(sourced, m)
  }

  /** Continues the loop from `t` over the remaining snapshots; the first
      snapshot that raises aborts the whole analysis. */
  function RunFrom(t: Tally, snapshots: seq<Json>, size: Json -> nat): (r: Result<Tally, Error>)
    ensures r.Ok? <==> forall i :: 0 <= i < |snapshots| ==> Classify(snapshots[i], size).Ok?
    decreases |snapshots|
  {
    if snapshots == [] then Ok(t)
    else
      var ev :- Classify(snapshots[0], size);
      var r := RunFrom(Apply(t, ev), snapshots[1..], size);
      assert forall i :: 1 <= i < |snapshots| ==> snapshots[1..][i - 1] == snapshots[i];
      r
  }

  /** The whole loop over the snapshots of a recording: it raises exactly when
      some snapshot fails to classify. */
  function Analyse(snapshots: seq<Json>, size: Json -> nat): (r: Result<Tally, Error>)
    ensures r.Ok? <==> forall i :: 0 <= i < |snapshots| ==> Classify(snapshots[i], size).Ok?
  {
    RunFrom(EmptyTally, snapshots, size)
  }

  // ---------------------------------------------------------------------------
  // What the tallies keep in step

  /** The cross-field invariants of the tallies: sources are counted once per
      incremental snapshot, and `addition_sizes` lists exactly what the
      per-node-type tallies add up. */
  ghost predicate Consistent(t: Tally) {
    && CountTotal(t.incrementalSnapshotEventSourceCounts) == CountOf(t.messageTypeCounts, IncrementalSnapshot)
    && CountTotal(t.mutationAdditionCounts) == |t.additionSizes|
    && SizeTotal(t.mutationAdditionCounts) == Sum(t.additionSizes)
  }

  /** How many snapshots have the given type name, read off the JSON. */
  function TypeCountIn(snapshots: seq<Json>, name: string): nat
    decreases |snapshots|
  {
    if snapshots == [] then 0
    else TypeCountIn(snapshots[..|snapshots| - 1], name)
         + (if TypeName(snapshots[|snapshots| - 1]) == Some(name) then 1 else 0)
  }

  /** Sum of `len(data["removes"])` over the mutation snapshots, read off the JSON. */
  function RemovalsIn(snapshots: seq<Json>): int
    decreases |snapshots|
  {
    if snapshots == [] then 0
    else RemovalsIn(snapshots[..|snapshots| - 1]) + RemovesOf(snapshots[|snapshots| - 1])
  }

  /** The sizes of every entry of `data["adds"]` over the mutation snapshots, in
      order, read off the JSON. */
  function AddedSizesIn(snapshots: seq<Json>, size: Json -> nat): seq<int>
    decreases |snapshots|
  {
    if snapshots == [] then []
    else AddedSizesIn(snapshots[..|snapshots| - 1], size) + AddedSizes(snapshots[|snapshots| - 1], size)
  }

  /** The source tally of the given source, read off the JSON: one item of the
      size of `data` per incremental snapshot with that source. */
  function SourceTallyIn(snapshots: seq<Json>, source: string, size: Json -> nat): SizedCount
    decreases |snapshots|
  {
    if snapshots == [] then Zero
    else
      var last := snapshots[|snapshots| - 1];
      var before := SourceTallyIn(snapshots[..|snapshots| - 1], source, size);
      if TypeName(last) == Some(IncrementalSnapshot) && SourceName(last) == Some(source) && Index(last, "data").Ok?
      then before.Record(size(Index(last, "data").value))
      else before
  }

  /** The addition tally of the given node type, read off the JSON: one item
      per `data["adds"]` entry of that node type, of the entry's size. */
  function NodeTallyIn(snapshots: seq<Json>, nodeType: string, size: Json -> nat): SizedCount
    decreases |snapshots|
  {
    if snapshots == [] then Zero
    else
      RecordAll(NodeTallyIn(snapshots[..|snapshots| - 1], nodeType, size),
                SizesOfType(AddedEntries(snapshots[|snapshots| - 1]), nodeType, size))
  }

  /** Every source and every node type holds exactly the tally its snapshots
      and entries give it. */
  ghost predicate TalliesAccountFor(t: Tally, snapshots: seq<Json>, size: Json -> nat) {
    && (forall source :: Get(t.incrementalSnapshotEventSourceCounts, source) == SourceTallyIn(snapshots, source, size))
    && (forall nodeType :: Get(t.mutationAdditionCounts, nodeType) == NodeTallyIn(snapshots, nodeType, size))
  }

  /** The counting invariants hold, every snapshot is counted once under its
      own type name, and the removals and addition sizes are those of the JSON. */
  ghost predicate CountsAccountFor(t: Tally, snapshots: seq<Json>, size: Json -> nat) {
    && Consistent(t)
    && Total(t.messageTypeCounts) == |snapshots|
    && (forall name :: CountOf(t.messageTypeCounts, name) == TypeCountIn(snapshots, name))
    && t.mutationRemovalCount == RemovalsIn(snapshots)
    && t.additionSizes == AddedSizesIn(snapshots, size)
  }

  /** A key is present exactly when something was counted under it: the loop
      creates each key right before its first `+=`, never otherwise. */
  ghost predicate KeysAccountFor(t: Tally, snapshots: seq<Json>, size: Json -> nat) {
    && (forall name :: name in t.messageTypeCounts <==> TypeCountIn(snapshots, name) > 0)
    && (forall source :: source in t.incrementalSnapshotEventSourceCounts <==> SourceTallyIn(snapshots, source, size).count > 0)
    && (forall nodeType :: nodeType in t.mutationAdditionCounts <==> NodeTallyIn(snapshots, nodeType, size).count > 0)
  }

  /** The tallies account for a whole recording: they keep the counting
      invariants, count every snapshot once under its own type name, hold the
      sum of the removals, list the size of every addition in order, and hold
      no key under which nothing was counted. */
  ghost predicate AccountsFor(t: Tally, snapshots: seq<Json>, size: Json -> nat) {
    && CountsAccountFor(t, snapshots, size)
    && TalliesAccountFor(t, snapshots, size)
    && KeysAccountFor(t, snapshots, size)
  }

  /** Every key the tallies hold has a positive count. */
  ghost predicate NoEmptyKeys(t: Tally) {
    && (forall k :: k in t.messageTypeCounts ==> t.messageTypeCounts[k] > 0)
    && (forall k :: k in t.incrementalSnapshotEventSourceCounts ==> t.incrementalSnapshotEventSourceCounts[k].count > 0)
    && (forall k :: k in t.mutationAdditionCounts ==> t.mutationAdditionCounts[k].count > 0)
  }

  /** What a classified snapshot contributes agrees with its JSON: its type
      name, `len(data["removes"])` and the sizes of the `data["adds"]` entries. */
  lemma ClassifyReadsSnapshot(snapshot: Json, size: Json -> nat)
    requires Classify(snapshot, size).Ok?
    ensures var ev := Classify(snapshot, size).value;
      && TypeName(snapshot) == Some(ev.eventType)
      && Removals(ev) == RemovesOf(snapshot)
      && SizesOf(AdditionsOf(ev)) == AddedSizes(snapshot, size)
  {
    var ev := Classify(snapshot, size).value;
    if ev.incremental.Some? && ev.incremental.value.mutation.Some? {
      var data := Index(snapshot, "data").value;
      var m := ev.incremental.value.mutation.value;
      assert MutationData(snapshot) == Some(data);
      var entries := AdditionEntries(Index(data, "adds").value).value;
      assert ClassifyAdditions(entries, size) == Ok(m.additions);
      assert SizesOf(m.additions) == AddedSizes(snapshot, size);
    } else if ev.incremental.Some? {
      assert SourceName(snapshot) == Some(ev.incremental.value.source);
      assert MutationData(snapshot) == None;
    } else {
      assert MutationData(snapshot) == None;
    }
  }

  /** Classifying the entries keeps, per node type, exactly the entries of that
      type, in order. */
  lemma {:induction false} ClassifyAdditionsOfType(entries: seq<Json>, nodeType: string, size: Json -> nat)
    requires ClassifyAdditions(entries, size).Ok?
    ensures SizesOf(OfType(ClassifyAdditions(entries, size).value, nodeType)) == SizesOfType(entries, nodeType, size)
    decreases |entries|
  {
    if entries != [] {
      var adds := ClassifyAdditions(entries, size).value;
      var first := ClassifyAddition(entries[0], size).value;
      var rest := ClassifyAdditions(entries[1..], size).value;
      assert adds == [first] + rest;
      assert adds[0] == first && adds[1..] == rest;
      ClassifyAdditionsOfType(entries[1..], nodeType, size);
      assert NodeTypeName(entries[0]) == Some(first.nodeType);
      if first.nodeType == nodeType {
        assert SizesOf([first] + OfType(rest, nodeType)) == [first.size] + SizesOf(OfType(rest, nodeType));
      }
    }
  }

  /** The additions a classified snapshot records are its `data["adds"]`
      entries, type by type. */
  lemma ClassifyReadsAdditions(snapshot: Json, nodeType: string, size: Json -> nat)
    requires Classify(snapshot, size).Ok?
    ensures SizesOf(OfType(AdditionsOf(Classify(snapshot, size).value), nodeType))
         == SizesOfType(AddedEntries(snapshot), nodeType, size)
  {
    var ev := Classify(snapshot, size).value;
    if ev.incremental.Some? && ev.incremental.value.mutation.Some? {
      var data := Index(snapshot, "data").value;
      assert MutationData(snapshot) == Some(data);
      var entries := AdditionEntries(Index(data, "adds").value).value;
      ClassifyAdditionsOfType(entries, nodeType, size);
    } else if ev.incremental.Some? {
      assert SourceName(snapshot) == Some(ev.incremental.value.source);
      assert MutationData(snapshot) == None;
    } else {
      assert MutationData(snapshot) == None;
    }
  }

  lemma EmptyTallyAccountsForNothing(size: Json -> nat)
    ensures AccountsFor(EmptyTally, [], size)
  {
    TotalEmpty();
  }

  /** Applying a snapshot moves the source tallies exactly as the readings
      over a prefix grow. */
  lemma SourcesStep(t: Tally, snapshots: seq<Json>, i: nat, size: Json -> nat)
    requires i < |snapshots| && Classify(snapshots[i], size).Ok?
    requires forall source :: Get(t.incrementalSnapshotEventSourceCounts, source) == SourceTallyIn(snapshots[..i], source, size)
    ensures var t' := Apply(t, Classify(snapshots[i], size).value);
      forall source :: Get(t'.incrementalSnapshotEventSourceCounts, source) == SourceTallyIn(snapshots[..i + 1], source, size)
  {
    var ev := Classify(snapshots[i], size).value;
    var t' := Apply(t, ev);
    assert snapshots[..i + 1][..i] == snapshots[..i];
    ApplyCountsSource(t, ev);
    forall source
      ensures Get(t'.incrementalSnapshotEventSourceCounts, source) == SourceTallyIn(snapshots[..i + 1], source, size)
    {
      if ev.incremental.Some? {
        assert SourceName(snapshots[i]) == Some(ev.incremental.value.source);
      }
    }
  }

  /** Applying a snapshot moves the node-type tallies exactly as the readings
      over a prefix grow. */
  lemma NodesStep(t: Tally, snapshots: seq<Json>, i: nat, size: Json -> nat)
    requires i < |snapshots| && Classify(snapshots[i], size).Ok?
    requires forall nodeType :: Get(t.mutationAdditionCounts, nodeType) == NodeTallyIn(snapshots[..i], nodeType, size)
    ensures var t' := Apply(t, Classify(snapshots[i], size).value);
      forall nodeType :: Get(t'.mutationAdditionCounts, nodeType) == NodeTallyIn(snapshots[..i + 1], nodeType, size)
  {
    var ev := Classify(snapshots[i], size).value;
    var t' := Apply(t, ev);
    assert snapshots[..i + 1][..i] == snapshots[..i];
    forall nodeType
      ensures Get(t'.mutationAdditionCounts, nodeType) == NodeTallyIn(snapshots[..i + 1], nodeType, size)
    {
      ClassifyReadsAdditions(snapshots[i], nodeType, size);
      ApplyRecordsPerType(t, ev, nodeType);
    }
  }

  /** Applying a snapshot moves the source and node-type tallies exactly as
      the readings over a prefix grow. */
  lemma TalliesStep(t: Tally, snapshots: seq<Json>, i: nat, size: Json -> nat)
    requires i < |snapshots| && Classify(snapshots[i], size).Ok?
    requires TalliesAccountFor(t, snapshots[..i], size)
    ensures TalliesAccountFor(Apply(t, Classify(snapshots[i], size).value), snapshots[..i + 1], size)
  {
    SourcesStep(t, snapshots, i, size);
    NodesStep(t, snapshots, i, size);
  }

  /** One snapshot adds exactly one to exactly one type count. */
  lemma ApplyCountsOneType(t: Tally, ev: Event)
    ensures var r := Apply(t, ev);
      && Total(r.messageTypeCounts) == Total(t.messageTypeCounts) + 1
      && (forall k :: k != ev.eventType ==> CountOf(r.messageTypeCounts, k) == CountOf(t.messageTypeCounts, k))
  {
    TotalUpdate(t.messageTypeCounts, ev.eventType, CountOf(t.messageTypeCounts, ev.eventType) + 1);
  }

  /** The source tallies change only for incremental snapshots, by one item of
      the data's size filed under the snapshot's own source and no other. */
  lemma ApplyCountsSource(t: Tally, ev: Event)
    ensures var r := Apply(t, ev);
      && (ev.incremental.Some? ==>
            && Get(r.incrementalSnapshotEventSourceCounts, ev.incremental.value.source)
               == Get(t.incrementalSnapshotEventSourceCounts, ev.incremental.value.source).Record(ev.incremental.value.dataSize)
            && (forall k :: k != ev.incremental.value.source ==>
                  Get(r.incrementalSnapshotEventSourceCounts, k) == Get(t.incrementalSnapshotEventSourceCounts, k))
            && CountTotal(r.incrementalSnapshotEventSourceCounts)
               == CountTotal(t.incrementalSnapshotEventSourceCounts) + 1
            && SizeTotal(r.incrementalSnapshotEventSourceCounts)
               == SizeTotal(t.incrementalSnapshotEventSourceCounts) + ev.incremental.value.dataSize)
  {
    if ev.incremental.Some? {
      var inc := ev.incremental.value;
      TotalsOfRecord(t.incrementalSnapshotEventSourceCounts, inc.source, inc.dataSize);
    }
  }

  /** Per node type, a snapshot records exactly its additions of that type. */
  lemma ApplyRecordsPerType(t: Tally, ev: Event, nodeType: string)
    ensures Get(Apply(t, ev).mutationAdditionCounts, nodeType)
         == RecordAll(Get(t.mutationAdditionCounts, nodeType), SizesOf(OfType(AdditionsOf(ev), nodeType)))
  {
    if ev.incremental.Some? && ev.incremental.value.mutation.Some? {
      var inc := ev.incremental.value;
      var m := inc.mutation.value;
      RecordAdditionsPerType(CountRemovals(CountSource(CountType(t, ev.eventType), inc), m.removals), m.additions, nodeType);
    }
  }

  /** Additions keep `addition_sizes` in step with the per-node-type tallies. */
  lemma ApplyKeepsAdditionsInStep(t: Tally, ev: Event)
    requires CountTotal(t.mutationAdditionCounts) == |t.additionSizes|
    requires SizeTotal(t.mutationAdditionCounts) == Sum(t.additionSizes)
    ensures var r := Apply(t, ev);
      && CountTotal(r.mutationAdditionCounts) == |r.additionSizes|
      && SizeTotal(r.mutationAdditionCounts) == Sum(r.additionSizes)
  {
  }

  /** Every snapshot keeps the invariants. */
  lemma ApplyKeepsConsistent(t: Tally, ev: Event)
    requires Consistent(t) && WellFormed(ev)
    ensures Consistent(Apply(t, ev))
  {
    ApplyCountsOneType(t, ev);
    ApplyCountsSource(t, ev);
    ApplyKeepsAdditionsInStep(t, ev);
  }

  /** One turn of the loop, as the fold sees it. */
  lemma RunFromStep(t: Tally, snapshots: seq<Json>, i: nat, size: Json -> nat)
    requires i < |snapshots|
    ensures RunFrom(t, snapshots[i..], size)
         == if Classify(snapshots[i], size).Err? then Err(Classify(snapshots[i], size).error)
            else RunFrom(Apply(t, Classify(snapshots[i], size).value), snapshots[i + 1..], size)
  {
    assert snapshots[i..][0] == snapshots[i] && snapshots[i..][1..] == snapshots[i + 1..];
  }

  /** The readings over a prefix grow by the next snapshot's own reading. */
  lemma PrefixStep(snapshots: seq<Json>, i: nat, size: Json -> nat, name: string)
    requires i < |snapshots|
    ensures TypeCountIn(snapshots[..i + 1], name)
         == TypeCountIn(snapshots[..i], name) + (if TypeName(snapshots[i]) == Some(name) then 1 else 0)
    ensures RemovalsIn(snapshots[..i + 1]) == RemovalsIn(snapshots[..i]) + RemovesOf(snapshots[i])
    ensures AddedSizesIn(snapshots[..i + 1], size) == AddedSizesIn(snapshots[..i], size) + AddedSizes(snapshots[i], size)
  {
    assert snapshots[..i + 1][..i] == snapshots[..i];
  }

  /** The inner loop only ever creates a node type key together with a first
      item under it. */
  lemma {:induction false} RecordAdditionsKeepsNoEmptyKeys(t: Tally, additions: seq<AddedNode>)
    requires NoEmptyKeys(t)
    ensures NoEmptyKeys(RecordAdditions(t, additions))
    decreases |additions|
  {
    if additions != [] {
      var t1 := RecordAddition(t, additions[0]);
      assert NoEmptyKeys(t1);
      RecordAdditionsKeepsNoEmptyKeys(t1, additions[1..]);
    }
  }

  /** One snapshot never leaves a key with nothing counted under it. */
  lemma ApplyKeepsNoEmptyKeys(t: Tally, ev: Event)
    requires NoEmptyKeys(t)
    ensures NoEmptyKeys(Apply(t, ev))
  {
    var counted := CountType(t, ev.eventType);
    assert NoEmptyKeys(counted);
    if ev.incremental.Some? {
      var sourced := CountSource(counted, ev.incremental.value);
      assert NoEmptyKeys(sourced);
      if ev.incremental.value.mutation.Some? {
        var m := ev.incremental.value.mutation.value;
        assert NoEmptyKeys(CountRemovals(sourced, m.removals));
        RecordAdditionsKeepsNoEmptyKeys(CountRemovals(sourced, m.removals), m.additions);
      }
    }
  }

  /** Given the counts, "a key is present exactly when its reading counts
      something" is the same as "no key holds an empty count". */
  lemma KeysFromNoEmptyKeys(t: Tally, snapshots: seq<Json>, size: Json -> nat)
    requires forall name :: CountOf(t.messageTypeCounts, name) == TypeCountIn(snapshots, name)
    requires TalliesAccountFor(t, snapshots, size)
    ensures NoEmptyKeys(t) <==> KeysAccountFor(t, snapshots, size)
  {
  }

  /** A snapshot that keeps the counts and tallies in step keeps the key sets
      in step too. */
  lemma KeysStep(t: Tally, ev: Event, before: seq<Json>, after: seq<Json>, size: Json -> nat)
    requires CountsAccountFor(t, before, size) && TalliesAccountFor(t, before, size) && KeysAccountFor(t, before, size)
    requires CountsAccountFor(Apply(t, ev), after, size) && TalliesAccountFor(Apply(t, ev), after, size)
    ensures KeysAccountFor(Apply(t, ev), after, size)
  {
    KeysFromNoEmptyKeys(t, before, size);
    ApplyKeepsNoEmptyKeys(t, ev);
    KeysFromNoEmptyKeys(Apply(t, ev), after, size);
  }

  /** One snapshot keeps the counts in step with the readings of the JSON. */
  lemma CountsStep(t: Tally, snapshots: seq<Json>, i: nat, size: Json -> nat)
    requires i < |snapshots| && Classify(snapshots[i], size).Ok?
    requires CountsAccountFor(t, snapshots[..i], size)
    ensures CountsAccountFor(Apply(t, Classify(snapshots[i], size).value), snapshots[..i + 1], size)
  {
    var ev := Classify(snapshots[i], size).value;
    var t' := Apply(t, ev);
    ClassifyReadsSnapshot(snapshots[i], size);
    ApplyKeepsConsistent(t, ev);
    ApplyCountsOneType(t, ev);
    PrefixStep(snapshots, i, size, ev.eventType);
    forall name
      ensures CountOf(t'.messageTypeCounts, name) == TypeCountIn(snapshots[..i + 1], name)
    {
      PrefixStep(snapshots, i, size, name);
    }
  }

  /** One turn of the loop keeps every loop invariant. */
  lemma LoopStep(t: Tally, snapshots: seq<Json>, i: nat, size: Json -> nat)
    requires i < |snapshots| && Classify(snapshots[i], size).Ok?
    requires AccountsFor(t, snapshots[..i], size)
    ensures var t' := Apply(t, Classify(snapshots[i], size).value);
      && RunFrom(t, snapshots[i..], size) == RunFrom(t', snapshots[i + 1..], size)
      && AccountsFor(t', snapshots[..i + 1], size)
  {
    var ev := Classify(snapshots[i], size).value;
    RunFromStep(t, snapshots, i, size);
    CountsStep(t, snapshots, i, size);
    TalliesStep(t, snapshots, i, size);
    KeysStep(t, ev, snapshots[..i], snapshots[..i + 1], size);
  }

  /** `analyse_exported_recording` without the file reading and printing: the
      loop over the snapshots, which stops at the first one that raises. */
  method AnalyseExportedRecording(snapshots: seq<Json>, size: Json -> nat) returns (r: Result<Tally, Error>)
    ensures r == Analyse(snapshots, size)
    ensures r.Ok? ==> AccountsFor(r.value, snapshots, size)
  {
    var t := EmptyTally;
    EmptyTallyAccountsForNothing(size);
    var i := 0;
    while i < |snapshots|
      invariant 0 <= i <= |snapshots|
      invariant Analyse(snapshots, size) == RunFrom(t, snapshots[i..], size)
      invariant AccountsFor(t, snapshots[..i], size)
    {
      var classified := Classify(snapshots[i], size);
      if classified.Err? {
        RunFromStep(t, snapshots, i, size);
        return Err(classified.error);
      }
      LoopStep(t, snapshots, i, size);
      t := Apply(t, classified.value);
      i := i + 1;
    }
    assert snapshots[..i] == snapshots;
    return Ok(t);
  }
}

=== FILE: classifier_laws.dfy ===
/** What the classification of a single snapshot guarantees, and how the loop
    over a recording splits: analysing two halves separately and merging the
    tallies with the dictionary merge of the aggregate accumulator gives the
    same result as analysing the whole. */
module ClassifierLaws {
  import opened Wrappers
  import opened SizedMaps
  import opened JsonValues
  import opened CodeTables
  import opened Classifier
  import Analyses

  // ---------------------------------------------------------------------------
  // Classification of one snapshot

  /** A snapshot without a `type` key is classified `"Unknown"`, and is never
      looked at further. */
  lemma MissingTypeIsUnknown(snapshot: Json, size: Json -> nat)
    requires snapshot.Obj? && "type" !in snapshot.fields
    ensures Classify(snapshot, size) == Ok(Event("Unknown", None))
  {
  }

  /** A `type` code outside the event table raises a `KeyError` naming it; a code
      inside it other than 3 classifies without looking any further. */
  lemma TypeCodeLookup(snapshot: Json, code: int, size: Json -> nat)
    requires snapshot.Obj? && "type" in snapshot.fields && snapshot.fields["type"] == Int(code)
    ensures code !in EventTypes ==> Classify(snapshot, size) == Err(KeyError(Int(code)))
    ensures code in EventTypes && code != 3 ==> Classify(snapshot, size) == Ok(Event(EventTypes[code], None))
    ensures Classify(snapshot, size).Ok? ==> code in EventTypes
  {
    BranchNamesAreUnique();
  }

  /** The incremental part of a snapshot of type 3 with an unmapped `source`
      code raises a `KeyError` naming the code; a missing `source` raises one
      naming the key. */
  lemma SourceCodeLookup(snapshot: Json, data: map<string, Json>, size: Json -> nat)
    requires snapshot.Obj? && "data" in snapshot.fields && snapshot.fields["data"] == Obj(data)
    ensures "source" !in data ==> ClassifyIncremental(snapshot, size) == Err(KeyError(Str("source")))
    ensures "source" in data && data["source"].Int? && data["source"].i !in IncrementalSnapshotEventSources ==>
              ClassifyIncremental(snapshot, size) == Err(KeyError(data["source"]))
    ensures ClassifyIncremental(snapshot, size).Ok? ==> "source" in data
  {
  }

  /** Every addition must carry a `node` with a `type` the node table maps. */
  lemma NodeTypeLookup(addition: Json, size: Json -> nat)
    ensures addition.Obj? && "node" !in addition.fields ==> ClassifyAddition(addition, size) == Err(KeyError(Str("node")))
    ensures addition.Obj? && "node" in addition.fields && addition.fields["node"].Obj?
            && "type" in addition.fields["node"].fields && addition.fields["node"].fields["type"].Int? ==>
              var code := addition.fields["node"].fields["type"].i;
              && (0 <= code <= 11 ==> ClassifyAddition(addition, size) == Ok(AddedNode(NodeTypes[code], size(addition))))
              && (!(0 <= code <= 11) ==> ClassifyAddition(addition, size) == Err(KeyError(Int(code))))
  {
    NodeTypesDomain();
  }

  /** Python booleans are the integers 0 and 1, so in each of the three
      tables `true` and `false` find what 1 and 0 find; only the `KeyError`
      of a missing entry names the boolean itself. */
  lemma BooleanCodes(b: bool)
    ensures forall table :: table in [EventTypes, IncrementalSnapshotEventSources, NodeTypes] ==>
              && (Lookup(table, Bool(b)).Ok? <==> Lookup(table, Int(if b then 1 else 0)).Ok?)
              && (Lookup(table, Bool(b)).Ok? ==> Lookup(table, Bool(b)) == Lookup(table, Int(if b then 1 else 0)))
              && (Lookup(table, Bool(b)).Err? ==> Lookup(table, Bool(b)) == Err(KeyError(Bool(b))))
    ensures Lookup(EventTypes, Bool(false)).Err? && Lookup(EventTypes, Bool(true)) == Ok("Load")
    ensures Lookup(IncrementalSnapshotEventSources, Bool(false)) == Ok("Mutation")
    ensures Lookup(NodeTypes, Bool(true)) == Ok("Element")
  {
  }

  // ---------------------------------------------------------------------------
  // Splitting a recording

  /** Merges the tallies of two consecutive parts of a recording, with the
      merges the aggregate accumulator uses: the projection of
      `Analyses.Combine` onto the loop's tallies (see `MergeIsCombine`). */
  function Merge(a: Tally, b: Tally): Tally {
    Tally(
      CombineCounts(a.messageTypeCounts, b.messageTypeCounts),
      CombineDicts(a.incrementalSnapshotEventSourceCounts, b.incrementalSnapshotEventSourceCounts),
      CombineDicts(a.mutationAdditionCounts, b.mutationAdditionCounts),
      a.additionSizes + b.additionSizes,
      a.mutationRemovalCount + b.mutationRemovalCount)
  }

  /** The loop's tallies inside an aggregate accumulator. The accumulator
      keeps its removal count as a SizedCount where the loop keeps a plain
      integer, so the removal count is supplied alongside. */
  function TalliesOf(a: Analyses.Analysis, removals: int): (r: Tally)
    ensures r.messageTypeCounts == a.messageTypeCounts && r.additionSizes == a.additionSizes
    ensures r.incrementalSnapshotEventSourceCounts == a.incrementalSnapshotEventSourceCounts
    ensures r.mutationAdditionCounts == a.mutationAdditionCounts && r.mutationRemovalCount == removals
  {
    Tally(a.messageTypeCounts, a.incrementalSnapshotEventSourceCounts, a.mutationAdditionCounts,
          a.additionSizes, removals)
  }

  /** Merging the tallies is merging the accumulators that hold them, with the
      removal counts added. */
  lemma MergeIsCombine(a: Analyses.Analysis, b: Analyses.Analysis, ra: int, rb: int)
    ensures Merge(TalliesOf(a, ra), TalliesOf(b, rb)) == TalliesOf(Analyses.Combine(a, b), ra + rb)
  {
  }

  lemma MergeEmptyRight(t: Tally)
    ensures Merge(t, EmptyTally) == t
  {
    CombineCountsIdentity(t.messageTypeCounts);
    CombineDictsIdentity(t.incrementalSnapshotEventSourceCounts);
    CombineDictsIdentity(t.mutationAdditionCounts);
    assert t.additionSizes + [] == t.additionSizes;
  }

  lemma RecordAdditionMerge(a: Tally, b: Tally, x: AddedNode)
    ensures RecordAddition(Merge(a, b), x) == Merge(a, RecordAddition(b, x))
  {
    RecordDistributesOverCombine(a.mutationAdditionCounts, b.mutationAdditionCounts, x.nodeType, x.size);
    assert (a.additionSizes + b.additionSizes) + [x.size] == a.additionSizes + (b.additionSizes + [x.size]);
  }

  lemma {:induction false} RecordAdditionsMerge(a: Tally, b: Tally, xs: seq<AddedNode>)
    ensures RecordAdditions(Merge(a, b), xs) == Merge(a, RecordAdditions(b, xs))
    decreases |xs|
  {
    if xs != [] {
      RecordAdditionMerge(a, b, xs[0]);
      RecordAdditionsMerge(a, RecordAddition(b, xs[0]), xs[1..]);
    }
  }

  lemma CountTypeMerge(a: Tally, b: Tally, eventType: string)
    ensures CountType(Merge(a, b), eventType) == Merge(a, CountType(b, eventType))
  {
    IncrementDistributesOverCombine(a.messageTypeCounts, b.messageTypeCounts, eventType, 1);
  }

  lemma CountSourceMerge(a: Tally, b: Tally, inc: Incremental)
    ensures CountSource(Merge(a, b), inc) == Merge(a, CountSource(b, inc))
  {
    RecordDistributesOverCombine(a.incrementalSnapshotEventSourceCounts, b.incrementalSnapshotEventSourceCounts,
                                 inc.source, inc.dataSize);
  }

  lemma RecordMutationMerge(a: Tally, b: Tally, m: Mutation)
    ensures RecordMutation(Merge(a, b), m) == Merge(a, RecordMutation(b, m))
  {
    assert CountRemovals(Merge(a, b), m.removals) == Merge(a, CountRemovals(b, m.removals));
    RecordAdditionsMerge(a, CountRemovals(b, m.removals), m.additions);
  }

  /** Processing a snapshot after a merge is processing it in the right operand. */
  lemma ApplyMerge(a: Tally, b: Tally, ev: Event)
    ensures Apply(Merge(a, b), ev) == Merge(a, Apply(b, ev))
  {
    CountTypeMerge(a, b, ev.eventType);
    var counted := CountType(b, ev.eventType);
    match ev.incremental {
      case None =>
      case Some(inc) =>
        CountSourceMerge(a, counted, inc);
        match inc.mutation {
          case None =>
          case Some(m) => RecordMutationMerge(a, CountSource(counted, inc), m);
        }
    }
  }

  /** The loop continued from a merge is the merge with the loop continued from
      its right operand; whether it raises does not depend on the tallies. */
  lemma {:induction false} RunFromMerge(a: Tally, b: Tally, snapshots: seq<Json>, size: Json -> nat)
    ensures RunFrom(Merge(a, b), snapshots, size).Ok? == RunFrom(b, snapshots, size).Ok?
    ensures RunFrom(b, snapshots, size).Err? ==> RunFrom(Merge(a, b), snapshots, size) == RunFrom(b, snapshots, size)
    ensures RunFrom(b, snapshots, size).Ok? ==>
              RunFrom(Merge(a, b), snapshots, size) == Ok(Merge(a, RunFrom(b, snapshots, size).value))
    decreases |snapshots|
  {
    if snapshots != [] {
      var c := Classify(snapshots[0], size);
      if c.Ok? {
        ApplyMerge(a, b, c.value);
        RunFromMerge(a, Apply(b, c.value), snapshots[1..], size);
      }
    }
  }

  /** The loop over two consecutive parts is the loop over the second started
      where the first ended. */
  lemma {:induction false} RunFromAppend(t: Tally, s1: seq<Json>, s2: seq<Json>, size: Json -> nat)
    ensures RunFrom(t, s1, size).Err? ==> RunFrom(t, s1 + s2, size) == RunFrom(t, s1, size)
    ensures RunFrom(t, s1, size).Ok? ==> RunFrom(t, s1 + s2, size) == RunFrom(RunFrom(t, s1, size).value, s2, size)
    decreases |s1|
  {
    if s1 == [] {
      assert s1 + s2 == s2;
    } else {
      assert (s1 + s2)[0] == s1[0] && (s1 + s2)[1..] == s1[1..] + s2;
      var c := Classify(s1[0], size);
      if c.Ok? {
        RunFromAppend(Apply(t, c.value), s1[1..], s2, size);
      }
    }
  }

  /** A recording may be analysed in two parts and the tallies merged: the
      result is that of analysing it whole, and it raises exactly when one of
      the parts does, with the first part's exception first. */
  lemma AnalyseSplits(s1: seq<Json>, s2: seq<Json>, size: Json -> nat)
    ensures Analyse(s1 + s2, size).Ok? <==> Analyse(s1, size).Ok? && Analyse(s2, size).Ok?
    ensures Analyse(s1, size).Err? ==> Analyse(s1 + s2, size) == Analyse(s1, size)
    ensures Analyse(s1, size).Ok? && Analyse(s2, size).Err? ==> Analyse(s1 + s2, size) == Analyse(s2, size)
    ensures Analyse(s1, size).Ok? && Analyse(s2, size).Ok? ==>
              Analyse(s1 + s2, size) == Ok(Merge(Analyse(s1, size).value, Analyse(s2, size).value))
  {
    RunFromAppend(EmptyTally, s1, s2, size);
    if Analyse(s1, size).Ok? {
      var t1 := Analyse(s1, size).value;
      MergeEmptyRight(t1);
      RunFromMerge(t1, EmptyTally, s2, size);
    }
  }
}

=== FILE: code_tables.dfy ===
/** The three fixed code tables of the recording format, and lookups in them. */
module CodeTables {
  import opened Wrappers
  import opened JsonValues

  /** `event_types`: the top-level kind of a snapshot. */
  const EventTypes: map<int, string> := map[
    -1 := "Unknown",
    1 := "Load",
    2 := "FullSnapshot",
    3 := "IncrementalSnapshot",
    4 := "Meta",
    5 := "Custom",
    6 := "Plugin"
  ]

  /** `incremental_snapshot_event_source`: what an incremental snapshot records. */
  const IncrementalSnapshotEventSources: map<int, string> := map[
    0 := "Mutation",
    1 := "MouseMove",
    2 := "MouseInteraction",
    3 := "Scroll",
    4 := "ViewportResize",
    5 := "Input",
    6 := "TouchMove",
    7 := "MediaInteraction",
    8 := "StyleSheetRule",
    9 := "CanvasMutation",
    10 := "Font",
    11 := "Log",
    12 := "Drag",
    13 := "StyleDeclaration",
    14 := "Selection",
    15 := "AdoptedStyleSheet"
  ]

  /** `node_types`: the DOM node kind of an added node; 0 has only a
      placeholder name. */
  const NodeTypes: map<int, string> := map[
    0 := "wat",
    1 := "Element",
    2 := "Attribute",
    3 := "Text",
    4 := "CDATA",
    5 := "EntityReference",
    6 := "Entity",
    7 := "ProcessingInstruction",
    8 := "Comment",
    9 := "Document",
    10 := "DocumentType",
    11 := "DocumentFragment"
  ]

  /** `table[code]` on a Python dictionary with integer keys. A boolean is an
      integer in Python, so `true` and `false` find the entries 1 and 0; lists
      and dictionaries are unhashable; any other value is simply not a key. */
  function Lookup(table: map<int, string>, code: Json): (r: Result<string, Error>)
    ensures r.Ok? ==> r.value in table.Values
    ensures code.Int? ==> (r.Ok? <==> code.i in table)
    ensures code.Int? && code.i in table ==> r == Ok(table[code.i])
    ensures code.Int? && code.i !in table ==> r == Err(KeyError(code))
    ensures code.Bool? ==>
              var i := if code.b then 1 else 0;
              && (r.Ok? <==> i in table)
              && (i in table ==> r == Ok(table[i]))
              && (i !in table ==> r == Err(KeyError(code)))
    ensures code.Null? || code.Str? ==> r == Err(KeyError(code))
    ensures code.Arr? || code.Obj? ==> r == Err(TypeError)
  {
    match code
    case Int(i) => if i in table then Ok(table[i]) else Err(KeyError(code))
    case Bool(b) =>
      var i := if b then 1 else 0;
      if i in table then Ok(table[i]) else Err(KeyError(code))
    case Arr(_) => Err(TypeError)
    case Obj(_) => Err(TypeError)
    case _ => Err(KeyError(code))
  }

  /** The codes each table knows. */
  lemma EventTypesDomain()
    ensures forall c :: c in EventTypes <==> c == -1 || 1 <= c <= 6
  {
  }

  lemma IncrementalSnapshotEventSourcesDomain()
    ensures forall c :: c in IncrementalSnapshotEventSources <==> 0 <= c <= 15
  {
  }

  /** The node type table is total on 0..11, with a placeholder name for 0. */
  lemma NodeTypesDomain()
    ensures forall c :: c in NodeTypes <==> 0 <= c <= 11
    ensures NodeTypes[0] == "wat"
  {
  }

  /** The names the analyser branches on each belong to exactly one code. */
  lemma BranchNamesAreUnique()
    ensures forall c :: c in EventTypes && EventTypes[c] == "IncrementalSnapshot" <==> c == 3
    ensures forall c :: c in EventTypes && EventTypes[c] == "Unknown" <==> c == -1
    ensures forall c :: c in IncrementalSnapshotEventSources && IncrementalSnapshotEventSources[c] == "Mutation" <==> c == 0
  {
  }
}

=== FILE: json_values.dfy ===
/** Parsed JSON values as the streaming parser hands them to the analyser, and
    the Python subscript and `len` operations the analyser applies to them. */
module JsonValues {
  import opened Wrappers

  /** A parsed JSON value. Non-integral numbers are not modelled. */
  datatype Json =
    | Null
    | Bool(b: bool)
    | Int(i: int)
    | Str(s: string)
    | Arr(items: seq<Json>)
    | Obj(fields: map<string, Json>)

  /** The Python exceptions a lookup can raise. */
  datatype Error =
    | KeyError(key: Json)  // a dictionary has no such key
    | TypeError            // the value does not support the operation
    | AttributeError       // the value has no `.get` method

  /** `value[key]` with a string key: a dictionary looks the key up; lists,
      strings, numbers and `None` all refuse a string subscript. */
  function Index(value: Json, key: string): (r: Result<Json, Error>)
    ensures r.Ok? <==> value.Obj? && key in value.fields
    ensures r.Ok? ==> r.value == value.fields[key]
    ensures value.Obj? && key !in value.fields ==> r == Err(KeyError(Str(key)))
    ensures !value.Obj? ==> r == Err(TypeError)
  {
    match value
    case Obj(fields) => if key in fields then Ok(fields[key]) else Err(KeyError(Str(key)))
    case _ => Err(TypeError)
  }

  /** `value.get(key, default)`: only dictionaries have `.get`. */
  function GetOr(value: Json, key: string, default: Json): (r: Result<Json, Error>)
    ensures value.Obj? ==> r == Ok(if key in value.fields then value.fields[key] else default)
    ensures !value.Obj? ==> r == Err(AttributeError)
  {
    match value
    case Obj(fields) => Ok(if key in fields then fields[key] else default)
    case _ => Err(AttributeError)
  }

  /** `len(value)`: the number of items of a list, characters of a string or
      keys of a dictionary; other values have no length. */
  function Length(value: Json): (r: Result<nat, Error>)
    ensures r.Ok? <==> value.Arr? || value.Str? || value.Obj?
    ensures value.Arr? ==> r == Ok(|value.items|)
    ensures value.Str? ==> r == Ok(|value.s|)
    ensures value.Obj? ==> r == Ok(|value.fields|)
    ensures !r.Ok? ==> r == Err(TypeError)
  {
    match value
    case Arr(items) => Ok(|items|)
    case Str(s) => Ok(|s|)
    case Obj(fields) => Ok(|fields|)
    case _ => Err(TypeError)
  }
}

=== FILE: sized_count.dfy ===
/** The (count, size) pair every "how many, how many bytes" statistic is kept in. */
module SizedCounts {

  /** `count` items that took `size` bytes between them. */
  datatype SizedCount = SizedCount(count: int, size: int) {

    /** Pairwise combination of two tallies (`SizedCount.combine`). */
    function Combine(other: SizedCount): (r: SizedCount)
      ensures other == SizedCount(0, 0) ==> r == this
      ensures this == SizedCount(0, 0) ==> r == other
    {
      SizedCount(count + other.count, size + other.size)
    }

    /** Records one more item of `bytes` bytes (`SizedCount.__add__`). */
    function Record(bytes: int): (r: SizedCount)
      ensures r == Combine(SizedCount(1, bytes))
    {
      SizedCount(count + 1, size + bytes)
    }
  }

  /** The tally of nothing: what an absent dictionary key stands for. */
  const Zero: SizedCount := SizedCount(0, 0)

  /** Sum of a sequence of byte sizes. */
  function Sum(xs: seq<int>): int {
    if xs == [] then 0 else Sum(xs[..|xs| - 1]) + xs[|xs| - 1]
  }

  /** Records every size of `sizes`, left to right. */
  function RecordAll(sc: SizedCount, sizes: seq<int>): SizedCount
    decreases |sizes|
  {
    if sizes == [] then sc else RecordAll(sc.Record(sizes[0]), sizes[1..])
  }

  lemma CombineCommutative(a: SizedCount, b: SizedCount)
    ensures a.Combine(b) == b.Combine(a)
  {
  }

  lemma CombineAssociative(a: SizedCount, b: SizedCount, c: SizedCount)
    ensures a.Combine(b).Combine(c) == a.Combine(b.Combine(c))
  {
  }

  lemma ZeroIsIdentity(a: SizedCount)
    ensures Zero.Combine(a) == a && a.Combine(Zero) == a
  {
  }

  /** Recording one item is combining with a tally of exactly that one item. */
  lemma RecordIsCombineWithOne(a: SizedCount, bytes: int)
    ensures a.Record(bytes) == a.Combine(SizedCount(1, bytes))
    ensures a.Record(bytes).count == a.count + 1
    ensures a.Record(bytes).size == a.size + bytes
  {
  }

  lemma {:induction false} SumAppend(xs: seq<int>, ys: seq<int>)
    ensures Sum(xs + ys) == Sum(xs) + Sum(ys)
    decreases |ys|
  {
    if ys == [] {
      assert xs + ys == xs;
    } else {
      var ys' := ys[..|ys| - 1];
      assert xs + ys == (xs + ys') + [ys[|ys| - 1]];
      assert (xs + ys)[..|xs + ys| - 1] == xs + ys';
      SumAppend(xs, ys');
    }
  }

  lemma SumCons(x: int, xs: seq<int>)
    ensures Sum([x] + xs) == x + Sum(xs)
  {
    SumAppend([x], xs);
    assert [x][..0] == [];
  }

  /** Recording k items of the given sizes raises the count by exactly k and the
      size by their sum. */
  lemma {:induction false} RecordAllAccumulates(sc: SizedCount, sizes: seq<int>)
    ensures RecordAll(sc, sizes).count == sc.count + |sizes|
    ensures RecordAll(sc, sizes).size == sc.size + Sum(sizes)
    decreases |sizes|
  {
    if sizes != [] {
      RecordAllAccumulates(sc.Record(sizes[0]), sizes[1..]);
      assert sizes == [sizes[0]] + sizes[1..];
      SumCons(sizes[0], sizes[1..]);
    }
  }
}

=== FILE: sized_maps.dfy ===
/** Dictionaries of tallies keyed by category name, and their key-wise merge. */
module SizedMaps {
  import opened SizedCounts

  /** `d.get(k, SizedCount(0, 0))`. */
  function Get(d: map<string, SizedCount>, k: string): SizedCount {
    if k in d then d[k] else Zero
  }

  /** `d.get(k, 0)`. */
  function CountOf(d: map<string, int>, k: string): int {
    if k in d then d[k] else 0
  }

  /** `_combine_sized_count_dicts`: the union of the keys, each value the
      combination of both sides, an absent key standing for (0, 0). */
  function CombineDicts(left: map<string, SizedCount>, right: map<string, SizedCount>): (r: map<string, SizedCount>)
    ensures r.Keys == left.Keys + right.Keys
  {
    map k | k in left.Keys + right.Keys :: Get(left, k).Combine(Get(right, k))
  }

  /** The merge of `message_type_counts`: per-key sum over the key union. */
  function CombineCounts(left: map<string, int>, right: map<string, int>): (r: map<string, int>)
    ensures r.Keys == left.Keys + right.Keys
  {
    map k | k in left.Keys + right.Keys :: CountOf(left, k) + CountOf(right, k)
  }

  /** The merged dictionary has exactly the keys of either side, and every
      key, present on one side or both, reads as the combination of both sides. */
  lemma GetCombineDicts(left: map<string, SizedCount>, right: map<string, SizedCount>, k: string)
    ensures CombineDicts(left, right).Keys == left.Keys + right.Keys
    ensures k in CombineDicts(left, right) <==> k in left || k in right
    ensures Get(CombineDicts(left, right), k) == Get(left, k).Combine(Get(right, k))
  {
  }

  /** The same for the per-type occurrence counts. */
  lemma CountOfCombineCounts(left: map<string, int>, right: map<string, int>, k: string)
    ensures CombineCounts(left, right).Keys == left.Keys + right.Keys
    ensures k in CombineCounts(left, right) <==> k in left || k in right
    ensures CountOf(CombineCounts(left, right), k) == CountOf(left, k) + CountOf(right, k)
  {
  }

  lemma CombineDictsCommutative(a: map<string, SizedCount>, b: map<string, SizedCount>)
    ensures CombineDicts(a, b) == CombineDicts(b, a)
  {
    var ab, ba := CombineDicts(a, b), CombineDicts(b, a);
    forall k | k in ab
      ensures ab[k] == ba[k]
    {
      CombineCommutative(Get(a, k), Get(b, k));
    }
  }

  lemma CombineDictsAssociative(a: map<string, SizedCount>, b: map<string, SizedCount>, c: map<string, SizedCount>)
    ensures CombineDicts(CombineDicts(a, b), c) == CombineDicts(a, CombineDicts(b, c))
  {
    var l, r := CombineDicts(CombineDicts(a, b), c), CombineDicts(a, CombineDicts(b, c));
    forall k | k in l
      ensures l[k] == r[k]
    {
      GetCombineDicts(a, b, k);
      GetCombineDicts(b, c, k);
      CombineAssociative(Get(a, k), Get(b, k), Get(c, k));
    }
  }

  /** The empty dictionary is a two-sided identity of the merge. */
  lemma CombineDictsIdentity(a: map<string, SizedCount>)
    ensures CombineDicts(map[], a) == a
    ensures CombineDicts(a, map[]) == a
  {
    var l, r := CombineDicts(map[], a), CombineDicts(a, map[]);
    forall k | k in a
      ensures l[k] == a[k] && r[k] == a[k]
    {
      ZeroIsIdentity(a[k]);
    }
  }

  lemma CombineCountsCommutative(a: map<string, int>, b: map<string, int>)
    ensures CombineCounts(a, b) == CombineCounts(b, a)
  {
  }

  lemma CombineCountsAssociative(a: map<string, int>, b: map<string, int>, c: map<string, int>)
    ensures CombineCounts(CombineCounts(a, b), c) == CombineCounts(a, CombineCounts(b, c))
  {
    var l, r := CombineCounts(CombineCounts(a, b), c), CombineCounts(a, CombineCounts(b, c));
    assert l.Keys == r.Keys;
    forall k | k in l
      ensures l[k] == r[k]
    {
      CountOfCombineCounts(a, b, k);
      CountOfCombineCounts(b, c, k);
      CountOfCombineCounts(CombineCounts(a, b), c, k);
      CountOfCombineCounts(a, CombineCounts(b, c), k);
    }
  }

  lemma CombineCountsIdentity(a: map<string, int>)
    ensures CombineCounts(map[], a) == a
    ensures CombineCounts(a, map[]) == a
  {
  }

  /** Recording into the right operand of a merge is recording into the merge. */
  lemma RecordDistributesOverCombine(a: map<string, SizedCount>, b: map<string, SizedCount>, k: string, bytes: int)
    ensures CombineDicts(a, b)[k := Get(CombineDicts(a, b), k).Record(bytes)]
         == CombineDicts(a, b[k := Get(b, k).Record(bytes)])
  {
    var l := CombineDicts(a, b)[k := Get(CombineDicts(a, b), k).Record(bytes)];
    var r := CombineDicts(a, b[k := Get(b, k).Record(bytes)]);
    assert l.Keys == r.Keys;
    forall j | j in l
      ensures l[j] == r[j]
    {
    }
  }

  /** Incrementing the right operand of a merge is incrementing the merge. */
  lemma IncrementDistributesOverCombine(a: map<string, int>, b: map<string, int>, k: string, d: int)
    ensures CombineCounts(a, b)[k := CountOf(CombineCounts(a, b), k) + d]
         == CombineCounts(a, b[k := CountOf(b, k) + d])
  {
    var l := CombineCounts(a, b)[k := CountOf(CombineCounts(a, b), k) + d];
    var r := CombineCounts(a, b[k := CountOf(b, k) + d]);
    assert l.Keys == r.Keys;
  }

  // ---------------------------------------------------------------------------
  // Totals over all keys of a dictionary

  ghost function Pick(keys: set<string>): (k: string)
    requires keys != {}
    ensures k in keys
  {
    var k :| k in keys; k
  }

  /** `sum(d.values())`. */
  ghost function Total(d: map<string, int>): int
    decreases |d|
  {
    if d == map[] then 0
    else
      var k := Pick(d.Keys);
      assert |d - {k}| < |d| by { assert (d - {k}).Keys + {k} == d.Keys; }
      d[k] + Total(d - {k})
  }

  /** The counts of a tally dictionary, key by key. */
  function Counts(d: map<string, SizedCount>): (r: map<string, int>)
    ensures r.Keys == d.Keys
    ensures forall k :: k in d ==> r[k] == d[k].count
  {
    map k | k in d :: d[k].count
  }

  /** The byte sizes of a tally dictionary, key by key. */
  function Sizes(d: map<string, SizedCount>): (r: map<string, int>)
    ensures r.Keys == d.Keys
    ensures forall k :: k in d ==> r[k] == d[k].size
  {
    map k | k in d :: d[k].size
  }

  /** Total number of items over all categories. */
  ghost function CountTotal(d: map<string, SizedCount>): int {
    Total(Counts(d))
  }

  /** Total number of bytes over all categories. */
  ghost function SizeTotal(d: map<string, SizedCount>): int {
    Total(Sizes(d))
  }

  /** Any key can be split off a total, not just the one `Total` picks. */
  lemma {:induction false} TotalRemove(d: map<string, int>, k: string)
    requires k in d
    ensures Total(d) == d[k] + Total(d - {k})
    decreases |d|
  {
    var j := Pick(d.Keys);
    if j != k {
      assert |d - {j}| < |d| by { assert (d - {j}).Keys + {j} == d.Keys; }
      assert |d - {k}| < |d| by { assert (d - {k}).Keys + {k} == d.Keys; }
      TotalRemove(d - {j}, k);
      TotalRemove(d - {k}, j);
      assert d - {j} - {k} == d - {k} - {j};
    }
  }

  /** Overwriting one entry changes the total by the difference. */
  lemma TotalUpdate(d: map<string, int>, k: string, v: int)
    ensures Total(d[k := v]) == Total(d) - CountOf(d, k) + v
  {
    TotalRemove(d[k := v], k);
    if k in d {
      TotalRemove(d, k);
      assert d[k := v] - {k} == d - {k};
    } else {
      assert d[k := v] - {k} == d;
    }
  }

  /** Totals are additive over the merge. */
  lemma {:induction false} TotalCombineCounts(a: map<string, int>, b: map<string, int>)
    ensures Total(CombineCounts(a, b)) == Total(a) + Total(b)
    decreases |a|
  {
    if a == map[] {
      CombineCountsIdentity(b);
    } else {
      var k := Pick(a.Keys);
      var a' := a - {k};
      assert |a'| < |a| by { assert a'.Keys + {k} == a.Keys; }
      TotalCombineCounts(a', b);
      TotalCombineCountsStep(a, b, k);
    }
  }

  lemma TotalCombineCountsStep(a: map<string, int>, b: map<string, int>, k: string)
    requires k in a && k == Pick(a.Keys)
    requires Total(CombineCounts(a - {k}, b)) == Total(a - {k}) + Total(b)
    ensures Total(CombineCounts(a, b)) == Total(a) + Total(b)
  {
    var m := CombineCounts(a - {k}, b);
    CombineCountsSplit(a, b, k);
    TotalUpdate(m, k, CountOf(m, k) + a[k]);
  }

  /** Peeling one key off the left operand of a merge. */
  lemma CombineCountsSplit(a: map<string, int>, b: map<string, int>, k: string)
    requires k in a
    ensures CombineCounts(a, b)
         == CombineCounts(a - {k}, b)[k := CountOf(CombineCounts(a - {k}, b), k) + a[k]]
  {
    var l := CombineCounts(a, b);
    var m := CombineCounts(a - {k}, b);
    var r := m[k := CountOf(m, k) + a[k]];
    assert l.Keys == r.Keys;
    forall j | j in l
      ensures l[j] == r[j]
    {
    }
  }

  lemma CountsOfCombine(a: map<string, SizedCount>, b: map<string, SizedCount>)
    ensures Counts(CombineDicts(a, b)) == CombineCounts(Counts(a), Counts(b))
    ensures Sizes(CombineDicts(a, b)) == CombineCounts(Sizes(a), Sizes(b))
  {
  }

  /** Merging two tally dictionaries adds their item totals and byte totals. */
  lemma TotalsOfCombine(a: map<string, SizedCount>, b: map<string, SizedCount>)
    ensures CountTotal(CombineDicts(a, b)) == CountTotal(a) + CountTotal(b)
    ensures SizeTotal(CombineDicts(a, b)) == SizeTotal(a) + SizeTotal(b)
  {
    CountsOfCombine(a, b);
    TotalCombineCounts(Counts(a), Counts(b));
    TotalCombineCounts(Sizes(a), Sizes(b));
  }

  /** Recording one item under any key raises the item total by one and the
      byte total by its size. */
  lemma TotalsOfRecord(d: map<string, SizedCount>, k: string, bytes: int)
    ensures CountTotal(d[k := Get(d, k).Record(bytes)]) == CountTotal(d) + 1
    ensures SizeTotal(d[k := Get(d, k).Record(bytes)]) == SizeTotal(d) + bytes
  {
    var d' := d[k := Get(d, k).Record(bytes)];
    assert Counts(d') == Counts(d)[k := CountOf(Counts(d), k) + 1];
    assert Sizes(d') == Sizes(d)[k := CountOf(Sizes(d), k) + bytes];
    TotalUpdate(Counts(d), k, CountOf(Counts(d), k) + 1);
    TotalUpdate(Sizes(d), k, CountOf(Sizes(d), k) + bytes);
  }

  lemma TotalEmpty()
    ensures Total(map[]) == 0 && CountTotal(map[]) == 0 && SizeTotal(map[]) == 0
  {
    assert Counts(map[]) == map[];
    assert Sizes(map[]) == map[];
  }
}

=== FILE: top_ten.dfy ===
/** The "top ten by size" view of a tally dictionary (`Analysis.top_ten_sized`),
    without the final string join. */
module TopTen {
  import opened SizedCounts

  /** One `(key, SizedCount)` item of a dictionary. */
  datatype Entry = Entry(key: string, value: SizedCount)

  /** How many entries the view keeps. */
  const Limit: nat := 10

  predicate SizeDescending(s: seq<Entry>) {
    forall i, j :: 0 <= i < j < |s| ==> s[i].value.size >= s[j].value.size
  }

  /** The entries of `s` of size exactly `size`, in their order in `s`. */
  function OfSize(s: seq<Entry>, size: int): seq<Entry> {
    if s == [] then []
    else (if s[0].value.size == size then [s[0]] else []) + OfSize(s[1..], size)
  }

  lemma ConsDescending(x: Entry, s: seq<Entry>)
    requires SizeDescending(s)
    requires s == [] || s[0].value.size <= x.value.size
    ensures SizeDescending([x] + s)
  {
    var r := [x] + s;
    forall i, j | 0 <= i < j < |r|
      ensures r[i].value.size >= r[j].value.size
    {
      if i == 0 {
        assert r[j] == s[j - 1];
        assert s[0].value.size >= s[j - 1].value.size;
      } else {
        assert r[i] == s[i - 1] && r[j] == s[j - 1];
      }
    }
  }

  /** Places `e` in front of the first entry that is no bigger. */
  function Insert(e: Entry, s: seq<Entry>): (r: seq<Entry>)
    ensures |r| == |s| + 1
    ensures r[0] == e || (s != [] && r[0] == s[0])
  {
    if s == [] || e.value.size >= s[0].value.size then [e] + s
    else [s[0]] + Insert(e, s[1..])
  }

  /** Inserting into a descending sequence keeps it descending and adds
      exactly `e`. */
  lemma {:induction false} InsertKeepsOrder(e: Entry, s: seq<Entry>)
    requires SizeDescending(s)
    ensures SizeDescending(Insert(e, s))
    ensures multiset(Insert(e, s)) == multiset(s) + multiset{e}
    decreases |s|
  {
    if s == [] || e.value.size >= s[0].value.size {
      ConsDescending(e, s);
    } else {
      var rest := Insert(e, s[1..]);
      InsertKeepsOrder(e, s[1..]);
      ConsDescending(s[0], rest);
      assert s == [s[0]] + s[1..];
    }
  }

  /** `sorted(items, key=size, reverse=True)`: largest first, a permutation of
      the input. */
  function SortBySize(s: seq<Entry>): (r: seq<Entry>)
    ensures SizeDescending(r)
    ensures multiset(r) == multiset(s)
    ensures |r| == |s|
  {
    if s == [] then []
    else
      var rest := SortBySize(s[1..]);
      InsertKeepsOrder(s[0], rest);
      assert s == [s[0]] + s[1..];
      Insert(s[0], rest)
  }

  lemma OfSizeCons(x: Entry, s: seq<Entry>, size: int)
    ensures OfSize([x] + s, size) == (if x.value.size == size then [x] else []) + OfSize(s, size)
  {
    assert ([x] + s)[1..] == s;
  }

  lemma {:induction false} InsertIsStable(e: Entry, s: seq<Entry>, size: int)
    ensures OfSize(Insert(e, s), size) == (if e.value.size == size then [e] else []) + OfSize(s, size)
    decreases |s|
  {
    if s == [] || e.value.size >= s[0].value.size {
      OfSizeCons(e, s, size);
    } else {
      var rest := Insert(e, s[1..]);
      InsertIsStable(e, s[1..], size);
      OfSizeCons(s[0], rest, size);
      OfSizeCons(s[0], s[1..], size);
      assert [s[0]] + s[1..] == s;
      if e.value.size == size {
        assert s[0].value.size != size;
      }
    }
  }

  /** The sort is stable, as Python's is even with `reverse=True`: entries of
      equal size keep their dictionary order. */
  lemma {:induction false} SortBySizeIsStable(s: seq<Entry>, size: int)
    ensures OfSize(SortBySize(s), size) == OfSize(s, size)
    decreases |s|
  {
    if s != [] {
      SortBySizeIsStable(s[1..], size);
      InsertIsStable(s[0], SortBySize(s[1..]), size);
    }
  }

  lemma {:induction false} OfSizeAppend(a: seq<Entry>, b: seq<Entry>, size: int)
    ensures OfSize(a + b, size) == OfSize(a, size) + OfSize(b, size)
    decreases |a|
  {
    if a == [] {
      assert a + b == b;
    } else {
      assert (a + b)[0] == a[0] && (a + b)[1..] == a[1..] + b;
      OfSizeAppend(a[1..], b, size);
    }
  }

  /** The entries of one size in a prefix are a prefix of those in the whole. */
  lemma OfSizePrefix(s: seq<Entry>, n: nat, size: int)
    requires n <= |s|
    ensures OfSize(s[..n], size) <= OfSize(s, size)
  {
    assert s == s[..n] + s[n..];
    OfSizeAppend(s[..n], s[n..], size);
  }

  /** Cutting the stably sorted entries keeps, of every size, the entries of
      that size that come first in the input. */
  lemma CutKeepsFirstOfEachSize(items: seq<Entry>, n: nat)
    requires n <= |items|
    ensures forall size :: OfSize(SortBySize(items)[..n], size) <= OfSize(items, size)
  {
    forall size
      ensures OfSize(SortBySize(items)[..n], size) <= OfSize(items, size)
    {
      SortBySizeIsStable(items, size);
      OfSizePrefix(SortBySize(items), n, size);
    }
  }

  /** In a descending sequence, everything past position n is no bigger than
      anything before it. */
  lemma PrefixIsTop(sorted: seq<Entry>, n: nat)
    requires SizeDescending(sorted) && n <= |sorted|
    ensures multiset(sorted[..n]) <= multiset(sorted)
    ensures SizeDescending(sorted[..n])
    ensures forall e :: e in multiset(sorted) - multiset(sorted[..n]) ==>
              forall i :: 0 <= i < n ==> e.value.size <= sorted[i].value.size
  {
    assert sorted == sorted[..n] + sorted[n..];
    assert multiset(sorted) == multiset(sorted[..n]) + multiset(sorted[n..]);
    assert multiset(sorted) - multiset(sorted[..n]) == multiset(sorted[n..]);
    forall e | e in multiset(sorted[n..])
      ensures forall i :: 0 <= i < n ==> e.value.size <= sorted[i].value.size
    {
      var j :| 0 <= j < |sorted[n..]| && sorted[n..][j] == e;
      assert sorted[n + j] == e;
    }
  }

  /** `top_ten_sized`: the (at most) ten largest entries, largest first; of
      equally sized entries, those earlier in dictionary order are kept. */
  function TopTenSized(items: seq<Entry>): (r: seq<Entry>)
    ensures |r| == if |items| < Limit then |items| else Limit
    ensures SizeDescending(r)
    ensures multiset(r) <= multiset(items)
    ensures forall e :: e in multiset(items) - multiset(r) ==>
              forall i :: 0 <= i < |r| ==> e.value.size <= r[i].value.size
    ensures forall size :: OfSize(r, size) <= OfSize(items, size)
  {
    var sorted := SortBySize(items);
    var n := if |sorted| < Limit then |sorted| else Limit;
    PrefixIsTop(sorted, n);
    CutKeepsFirstOfEachSize(items, n);
    sorted[..n]
  }
}

=== FILE: wrappers.dfy ===
/** Failure-compatible wrappers shared by the other modules. */
module Wrappers {

  /** Python's `Optional[T]`: `None` or a present value. */
  datatype Option<+T> = None | Some(value: T)

  /** The outcome of a step that may raise: a value, or the exception it raised. */
  datatype Result<+T, +E> = Ok(value: T) | Err(error: E) {

    predicate IsFailure() {
      Err?
    }

    function PropagateFailure<U>(): Result<U, E>
      requires Err?
    {
      Err(error)
    }

    function Extract(): T
      requires Ok?
    {
      value
    }
  }
}
